=== FILE: README.md ===
# Bogus core allocation library in Dafny

This project models the in-memory allocation library of the Bogus engine
(`Bogus/Core`):

- **Arena bump allocator.** An arena is a reserved address range with a header, a bump cursor, a committed prefix and a commit increment. The model covers `ArenaAlloc`, `ArenaPush`, `ArenaPopTo`, `ArenaPop` and `ArenaClear`, plus the typed helpers that push arrays, static vectors and element pools.
- **Policy-based `Vector`.** It has a static-buffer policy and an arena policy. The model covers `push_new`, `pop`, `push`, `find`, `remove` and `remove_elem`.
- **`ElementPool`.** Stable handles with an intrusive LIFO free list.
- **`VectorMap`.** An association list with add-if-absent semantics.
- **`String::Buffer<N>`.** A fixed-capacity character buffer.
- **`Globals.h` helpers.** `MIN`/`MAX`/`CLAMP`, `ALIGNUP_POW2` and the size macros.
- **The BaseApp walk-through** (`Apps/BaseApp/src/main.cpp`), as four concrete runs.

Everything is immutable data and pure functions. The two exceptions, `Remove` and `ForEachElement`, are methods with loops. Memory is modelled as follows:

- Positions are byte offsets from the start of the arena's range.
- Pointers are `Option<nat>` offsets, where `None` is null.
- Byte contents appear only where zeroing is the point: `ArenaTyped.Region` pairs an arena with the bytes of its committed prefix.
- The operating system enters as parameters:
  - the page size;
  - whether the reservation succeeded;
  - the bytes of newly committed pages (`Pages`: given bytes for the first offsets, one fill byte beyond).
- A template's element type `T` is an `ElemType<T>` value holding sizeof( T ) and ALIGNOF( T ). The array helpers take the two numbers directly, because they only return an offset.

Modules, one per source unit:

| module | file | source |
|---|---|---|
| `Wrappers` | wrappers.dfy | `Option` |
| `Globals` | globals.dfy | Bogus/Core/inc/Globals.h |
| `CoreArena` | arena.dfy | Bogus/Core/src/Core_Arena.cpp, records and constants of Bogus/Core/inc/Core_Arena.h |
| `CoreVector` | vector.dfy | `VectorPolicyArena`, `VectorPolicyStatic`, `Vector` of Bogus/Core/inc/Core_Vector.h |
| `ElementPool` | pool.dfy | `ElementPool` of Bogus/Core/inc/Core_Vector.h |
| `CoreVectorMap` | vector_map.dfy | `VectorMapPair`, `VectorMap` of Bogus/Core/inc/Core_Vector.h |
| `ArenaTyped` | arena_typed.dfy | the typed push helpers of Bogus/Core/inc/Core_Arena.h |
| `CoreString` | string_buffer.dfy | `String::Buffer` of Bogus/Core/inc/Core_String.h |
| `Scenario` | scenario.dfy | Apps/BaseApp/src/main.cpp |

How source assertions are modelled:

- **Assertion followed by a `return`.** `BGASSERT` only breaks into a debugger and continues. When a `return` follows it, the model returns the unchanged state, null or false, as the code does.
- **Assertion followed by nothing.** When a `BGASSERT` or `assert` has no `return` after it, the model treats the asserted condition as a precondition. A C `assert` (`operator[]`, `Terminate`, `append`, `c_str`) aborts a debug build, and a release build would index or write out of range. A `BGASSERT` reports and carries on: `ArenaPopTo` still sets the cursor to MAX( header, target ), and `ElementPool::Get` still returns the dead slot. Those continuations are listed under "## Left out".

Edge cases the model follows exactly as the code handles them:

- **`ArenaPop` with a large size.** A size not below the cursor makes the target the current position, so the cursor stays where it is (Bogus/Core/src/Core_Arena.cpp:105-114). This holds while the cursor is below the committed end; a full arena is the `ArenaPopTo` case under "## Left out".
- **`pop` on an empty vector.** The arena policy reports it and returns unchanged (Bogus/Core/inc/Core_Vector.h:47-57). The static policy decrements unchecked (Bogus/Core/inc/Core_Vector.h:93), which is why its non-emptiness is a precondition.
- **`remove` and `remove_elem` on a bad argument.** An out-of-range index or an absent value is reported and the call returns, leaving the vector unchanged (Bogus/Core/inc/Core_Vector.h:155-179).
- **`uiBasePos`.** The code of `ArenaAlloc` writes `uiBasePos`, a field the header's `Arena` record does not declare. The model's `Arena` carries it, and `ARENA_HEADER_SIZE` is computed with it: 64 bytes on a 64-bit target. The name token is stored in the parameters, as the record declares, not after the header.

## Model

| member | source | states |
|---|---|---|
| Globals.WrapU32 | Bogus/Core/inc/Globals.h:16 | A uint32 counter is its integer modulo 2^32: in-range values are kept, -1 becomes max_uint32 and 2^32 becomes 0 |
| Globals.Min | Bogus/Core/inc/Globals.h:29 | MIN returns one of its operands, and that operand is at most both |
| Globals.Max | Bogus/Core/inc/Globals.h:30 | MAX returns one of its operands, and that operand is at least both |
| Globals.ClampAsWritten | Bogus/Core/inc/Globals.h:29-31 | The unparenthesised expansion of CLAMP: below the range it gives lo only when lo < hi, and otherwise hi; above lo it returns x itself whenever x is nonzero, and hi when x is zero |
| Globals.Clamp | Bogus/Core/inc/Globals.h:31 | CLAMP as intended: for lo <= hi the result lies in [lo, hi], equals x inside the range and the nearer bound outside it |
| Globals.ClampAsWrittenMissesUpperBound | Bogus/Core/inc/Globals.h:29-31 | Concrete inputs: CLAMP(10, 0, 5) expands to 10, not 5, and CLAMP(0, -3, 5) expands to 5, not 0 |
| Globals.ClampAsWrittenAgreement | Bogus/Core/inc/Globals.h:29-31 | For lo <= hi the expansion agrees with the intended clamp exactly when x <= lo, or x <= hi with x nonzero, or x is zero and hi is not positive; so it differs for every nonzero x above hi and for a zero strictly inside the range |
| Globals.Log2 | Bogus/Core/inc/Globals.h:33 | Every power of two is 2^k for the exponent returned |
| Globals.Pow2Add | Bogus/Core/inc/Globals.h:33 | 2^(a+b) = 2^a * 2^b |
| Globals.Pow2Monotone | Bogus/Core/inc/Globals.h:33 | 2^a <= 2^b for a <= b |
| Globals.DivModUnique | Bogus/Core/inc/Globals.h:33 | A quotient and remainder with y = d*q + r and 0 <= r < d are exactly y / d and y % d |
| Globals.BitAndAllOnes | Bogus/Core/inc/Globals.h:33 | ANDing with 2^n - 1 keeps every value below 2^n |
| Globals.BitAndClearsLow | Bogus/Core/inc/Globals.h:33 | ANDing a value below 2^n with 2^n - 2^k clears exactly its remainder modulo 2^k |
| Globals.RoundUp | Bogus/Core/src/Core_Arena.cpp:70 | The reference rounding: a multiple of m within [x, x + m) |
| Globals.RoundUpOfMultiple | Bogus/Core/src/Core_Arena.cpp:70 | A multiple of m is its own rounding |
| Globals.RoundUpMonotone | Bogus/Core/src/Core_Arena.cpp:70 | Rounding up preserves <= |
| Globals.AlignUpPow2NoWrap | Bogus/Core/inc/Globals.h:33 | For a >= 1 and no overflow, the uint64 `a - 1` and the addition inside ALIGNUP_POW2 do not wrap |
| Globals.AlignUpPow2IsRoundUp | Bogus/Core/inc/Globals.h:33 | For a power of two and no overflow, the bitwise ALIGNUP_POW2, with its uint64 complement, equals rounding up to a multiple of the alignment |
| Globals.MaskRoundsDown | Bogus/Core/inc/Globals.h:33 | `y & ~(a - 1)` on 64 bits rounds y down to a multiple of the power of two a |
| Globals.AlignUpPow2Properties | Bogus/Core/inc/Globals.h:33 | ALIGNUP_POW2(x, a) lies in [x, x + a), is a multiple of a, and is x itself when x is already aligned |
| Globals.AlignUpPow2One | Bogus/Core/inc/Globals.h:33 | Alignment 1, the arena vector policy's case, is the identity |
| Globals.Pow2AtLeast8IsMultipleOf8 | Bogus/Core/inc/Core_Arena.h:63 | A power-of-two alignment of at least 8 is a multiple of 8 |
| Globals.ShiftLeftIsMultiply | Bogus/Core/inc/Globals.h:37-39 | n << s is n * 2^s on unbounded integers |
| Globals.Kilobytes | Bogus/Core/inc/Globals.h:37 | KILOBYTES(n) = n * 1024 for an `int` argument whose result stays within INT_MAX (beyond it the shift is undefined) |
| Globals.Megabytes | Bogus/Core/inc/Globals.h:38 | MEGABYTES(n) = n * 1024 * 1024 for an `int` argument whose result stays within INT_MAX (beyond it the shift is undefined) |
| Globals.Gigabytes | Bogus/Core/inc/Globals.h:39 | GIGABYTES(n) = n * 2^30 whenever that fits in 64 bits, and always a uint64 |
| CoreArena.HashTokenSize | Bogus/Core/inc/Core_Arena.h:19 | The name token (pointer, length, hash) occupies 16 bytes and is 8-aligned |
| CoreArena.ArenaParamsSize | Bogus/Core/inc/Core_Arena.h:15-20 | ArenaAllocParams, with the token nested at its own size and alignment, occupies 32 bytes and is 8-aligned |
| CoreArena.ArenaHeaderSizeIsSizeOf | Bogus/Core/inc/Core_Arena.h:23-30 | ARENA_HEADER_SIZE = sizeof( Arena ) = 64, with the parameters nested at their own size and alignment and every other field at its natural alignment, and ALIGNOF( Arena ) = 8 |
| CoreArena.DefaultSizes | Bogus/Core/inc/Core_Arena.h:11-12 | The defaults are a 64 MiB reservation and a 64 KiB commit increment |
| CoreArena.GetPos | Bogus/Core/src/Core_Arena.cpp:48-51 | On a valid arena the cursor lies between the header and the committed end |
| CoreArena.GetBegin | Bogus/Core/src/Core_Arena.cpp:55-58 | On a valid arena the user region begins right after the header, at or before the cursor |
| CoreArena.ArenaPush | Bogus/Core/src/Core_Arena.cpp:62-91 | On success the block starts at the aligned cursor, which is a multiple of the alignment in [pos, pos + align), and the cursor moves to the block's end, which is committed. A block ending past the reservation is refused with the cursor unchanged. Commit changes only when the block ends past it, and then becomes exactly MIN( the block's end rounded up to a whole commit increment, the reservation ); within the reservation it never shrinks. Nothing else changes |
| CoreArena.ArenaPopTo | Bogus/Core/src/Core_Arena.cpp:95-101 | The cursor becomes the target, or the header when the target is inside it; nothing else changes; validity is kept and the cursor never moves forward |
| CoreArena.ArenaPop | Bogus/Core/src/Core_Arena.cpp:105-114 | Popping fewer bytes than the cursor is PopTo(pos - size); popping at least the cursor leaves a valid arena as it was; validity is kept |
| CoreArena.ArenaClear | Bogus/Core/src/Core_Arena.cpp:118-121 | The cursor returns to the header; committed and reserved sizes and the parameters are untouched |
| CoreArena.ArenaAlloc | Bogus/Core/src/Core_Arena.cpp:14-37 | A refused reservation gives null. Otherwise the parameters are stored, the reservation is page-rounded, and the cursor and base are both the header size. The commit is the page-rounded increment whenever that covers the header, and the arena is valid when the rounded commit fits in the rounded reservation |
| CoreArena.BoundedRequestFits | Bogus/Core/src/Core_Arena.cpp:64-65 | On a valid arena, a power-of-two request whose worst-case end stays in uint64 meets ArenaPush's no-wrap precondition |
| CoreArena.PushPreservesValid | Bogus/Core/src/Core_Arena.cpp:62-91 | ArenaPush keeps header <= pos <= committed <= reserved, and neither the cursor nor the commit moves back |
| CoreArena.PushPopRoundTrip | Bogus/Core/src/Core_Arena.cpp:62-101 | Saving the cursor, pushing and popping back restores the cursor and keeps the commit, and an identical re-push hands out the same block with the same header |
| CoreArena.PushAll | Bogus/Core/src/Core_Arena.cpp:62-91 | Any sequence of bounded pushes keeps the arena valid and its reservation fixed, and never moves the cursor or the commit back |
| CoreVector.NewStatic | Bogus/Core/inc/Core_Vector.h:69-72 | A static vector starts empty with the given capacity and satisfies the vector invariant |
| CoreVector.FitsIffAtMostQuotient | Bogus/Core/inc/Core_Vector.h:25 | k elements of size s fit in d bytes exactly when k <= d / s |
| CoreVector.NewArenaVector | Bogus/Core/inc/Core_Vector.h:21-26 | An arena vector exists exactly when the reservation succeeds, and starts empty on the arena policy. Its arena is asked for desired * sizeof(T) + ARENA_HEADER_SIZE bytes and commits growth * sizeof(T) bytes at a time. The reservation is that request rounded up to a page, and the first commit is the rounded increment once that covers the header. The capacity is (reserved - header) / sizeof(T) truncated to uint32. When the growth is at most the desired capacity and the count fits in uint32, the invariant holds and the capacity is at least the desired one |
| CoreVector.VectorRoom | Bogus/Core/inc/Core_Vector.h:23-25 | The page-rounded reservation covers the header and the desired elements, a smaller commit rounds to no more than it, and it stays in uint64 |
| CoreVector.DefaultVectorBounds | Bogus/Core/inc/Core_Vector.h:15-16 | With the template defaults, for elements of at most max_uint32 bytes and pages up to 4 KiB, the reservation fits in uint64 and the capacity in uint32 |
| CoreVector.DefaultArenaVector | Bogus/Core/inc/Core_Vector.h:15-26 | A default-constructed arena vector exists exactly when the reservation succeeds. For elements of at most 4 MiB, so that the growth of 16 elements is at most the desired capacity, it is then empty, valid and holds at least 64 MiB worth of elements |
| CoreVector.ArenaPushOneMore | Bogus/Core/inc/Core_Vector.h:35-45 | With the cursor size elements past the header, one more element's push ends one element further and fits in the reservation exactly when size < capacity |
| CoreVector.OneMoreFits | Bogus/Core/inc/Core_Vector.h:25 | One more element fits in the reservation exactly when the count is below the capacity |
| CoreVector.PushNew | Bogus/Core/inc/Core_Vector.h:35-91 | push_new succeeds exactly when size < capacity, under both policies. On success the default element is appended; on failure the elements are unchanged. The vector invariant is kept, which for the arena policy means pos = base + size * sizeof(T). A static vector keeps its policy; an arena vector changes only its arena's cursor and commit, the commit never shrinking |
| CoreVector.ArenaPopOneLess | Bogus/Core/inc/Core_Vector.h:56 | Popping one element from a non-empty arena vector is a legal ArenaPop that lands one element lower, still past the header |
| CoreVector.Pop | Bogus/Core/inc/Core_Vector.h:47-93 | A non-empty vector loses its last element, keeping the invariant. A static vector keeps its policy; an arena vector rewinds its arena cursor by one element and changes nothing else. An empty arena vector is left unchanged |
| CoreVector.Push | Bogus/Core/inc/Core_Vector.h:136-143 | The value is appended when there is room and silently dropped otherwise; the invariant and capacity are kept |
| CoreVector.IndexOf | Bogus/Core/inc/Core_Vector.h:145-153 | The first index at or after `from` holding x, or eInvalidIndex exactly when no such index exists |
| CoreVector.Find | Bogus/Core/inc/Core_Vector.h:145-153 | find is eInvalidIndex exactly when x is absent; otherwise it is the lowest index holding x |
| CoreVector.Remove | Bogus/Core/inc/Core_Vector.h:155-168 | An in-range index is deleted with the relative order of the rest kept; an out-of-range index leaves the vector unchanged; the invariant and capacity are kept, as is the rest of the policy: a static vector's buffer, and an arena vector's arena apart from its cursor |
| CoreVector.RemoveElem | Bogus/Core/inc/Core_Vector.h:170-179 | An absent value leaves the vector unchanged; otherwise the first occurrence, and only it, is deleted; capacity, buffer and arena apart from its cursor are kept |
| CoreVector.PushPopRoundTrip | Bogus/Core/inc/Core_Vector.h:35-57 | Push then pop with room gives back the elements; a static vector comes back whole, and an arena vector gets back its cursor, keeping any commit |
| CoreVector.FullVectorRefusesPush | Bogus/Core/inc/Core_Vector.h:136-143 | A vector at capacity refuses push_new under either policy, and push then leaves its elements as they were |
| CoreVector.PushAll | Bogus/Core/inc/Core_Vector.h:136-143 | Pushing a sequence fills up to capacity; when everything fits, the values are appended in order |
| CoreVector.FindAfterPush | Bogus/Core/inc/Core_Vector.h:136-153 | A pushed value that was absent is then found at the old size and is the back element |
| ElementPool.ChainHead | Bogus/Core/inc/Core_Vector.h:218-225 | With at most max_uint32 slots, the free head is INVALID exactly when the free list is empty; otherwise it is a dead slot in range |
| ElementPool.CountLive | Bogus/Core/inc/Core_Vector.h:292 | The number of live slots never exceeds the number of slots |
| ElementPool.NewPool | Bogus/Core/inc/Core_Vector.h:198-199 | A new pool over an empty vector has an empty free list, no live elements and satisfies the pool invariant |
| ElementPool.Create | Bogus/Core/inc/Core_Vector.h:215-240 | With a free slot, Create returns the free head, makes it live and advances the head to its successor. Otherwise it appends at index size when there is room and returns INVALID, with nothing but a possible commit changed, when there is not. A successful Create increments the count |
| ElementPool.Destroy | Bogus/Core/inc/Core_Vector.h:242-262 | Destroy succeeds exactly for an in-range live handle. It then marks the slot dead, links it before the old head, makes it the head and decrements the count; otherwise nothing changes |
| ElementPool.TryGet | Bogus/Core/inc/Core_Vector.h:276-288 | TryGet finds a value exactly for an in-range live handle, and it is that slot's value |
| ElementPool.Get | Bogus/Core/inc/Core_Vector.h:264-274 | Get returns nothing exactly for an out-of-range handle, and the slot's value otherwise |
| ElementPool.Count | Bogus/Core/inc/Core_Vector.h:292 | count() is the number of live slots |
| ElementPool.CountBounded | Bogus/Core/inc/Core_Vector.h:292 | Under the pool invariant count() never exceeds the number of slots, which stays within uint32 |
| ElementPool.ForEachElement | Bogus/Core/inc/Core_Vector.h:201-213 | The visited (index, value) pairs are exactly the live slots, in strictly ascending index order |
| ElementPool.CountLiveUpdate | Bogus/Core/inc/Core_Vector.h:227-228 | Overwriting one slot changes the live count by the difference of the two slots' liveness |
| ElementPool.InvImpliesFreeHeadOk | Bogus/Core/inc/Core_Vector.h:224 | The pool invariant makes Create's assertion true: the free head is INVALID or a dead slot |
| ElementPool.EmptyFreeListNoDead | Bogus/Core/inc/Core_Vector.h:218 | Under the invariant, an INVALID free head means no slot is dead |
| ElementPool.ReuseKeepsChain | Bogus/Core/inc/Core_Vector.h:218-229 | Removing the head from an acyclic free list that covers every dead slot, and making that slot live, leaves such a list from the next slot |
| ElementPool.DestroyKeepsChain | Bogus/Core/inc/Core_Vector.h:250-259 | Marking a live slot dead and linking it in front keeps the free list acyclic and covering every dead slot |
| ElementPool.GrowKeepsChain | Bogus/Core/inc/Core_Vector.h:232-239 | Appending a live slot to a pool with no dead slot keeps the empty free list |
| ElementPool.CreatePreservesInv | Bogus/Core/inc/Core_Vector.h:215-240 | Create keeps the pool invariant: a duplicate-free free list that visits exactly the dead slots, and count equal to the live slots |
| ElementPool.DestroyPreservesInv | Bogus/Core/inc/Core_Vector.h:242-262 | Destroy keeps the pool invariant |
| ElementPool.DestroyThenCreateReuses | Bogus/Core/inc/Core_Vector.h:218-259 | The free list is LIFO: the handle destroyed last is handed out next, live again, with the free head restored |
| ElementPool.DoubleDestroyRefused | Bogus/Core/inc/Core_Vector.h:250-255 | A destroyed handle cannot be destroyed again and TryGet finds nothing there |
| ElementPool.CreatedHandleIsLive | Bogus/Core/inc/Core_Vector.h:215-240 | A handle from Create holds the new default element, and its slot was fresh or dead before |
| ElementPool.OtherHandlesStable | Bogus/Core/inc/Core_Vector.h:215-262 | Create and Destroy leave every other handle's slot as it was |
| ElementPool.ExhaustionAndRecovery | Bogus/Core/inc/Core_Vector.h:232-259 | A full pool with no free slot refuses Create and keeps its count; destroying any handle then lets Create return that handle |
| CoreVectorMap.Keys | Bogus/Core/inc/Core_Vector.h:301-315 | The keys of the pairs, one per pair, in order |
| CoreVectorMap.FindKey | Bogus/Core/inc/Core_Vector.h:379-388 | find is eInvalidIndex exactly when the key is absent; otherwise it is the first index with that key |
| CoreVectorMap.AddAsWritten | Bogus/Core/inc/Core_Vector.h:333-349 | add as written: a present key returns its index, sets *pExists to 1 and changes nothing. A new key is pushed when there is room, and the return is size - 1 as a uint32 whether or not the push happened |
| CoreVectorMap.Add | Bogus/Core/inc/Core_Vector.h:333-349 | The corrected add returns eInvalidIndex exactly when the key is new and the map is full. A present key returns its index, sets *pExists and changes nothing; a new key with room is appended and its index returned |
| CoreVectorMap.FindData | Bogus/Core/inc/Core_Vector.h:396 | find_data on a present key gives the element stored with it, the only one under distinct keys |
| CoreVectorMap.AddAll | Bogus/Core/inc/Core_Vector.h:333-349 | A run of adds keeps the vector invariant and capacity and adds at most one pair per call |
| CoreVectorMap.KeysAppend | Bogus/Core/inc/Core_Vector.h:347 | Appending a pair appends its key |
| CoreVectorMap.AddPreservesInv | Bogus/Core/inc/Core_Vector.h:333-349 | add keeps the keys distinct |
| CoreVectorMap.AddThenFindData | Bogus/Core/inc/Core_Vector.h:333-396 | After a successful add, find_data of the key gives the new element for a new key and the old one for a present key |
| CoreVectorMap.AddIdempotent | Bogus/Core/inc/Core_Vector.h:333-349 | Adding a key a second time changes nothing, returns the same index and sets *pExists to 1 |
| CoreVectorMap.AddKeepsOtherKeys | Bogus/Core/inc/Core_Vector.h:333-388 | Adding one key leaves the index of every other key unchanged |
| CoreVectorMap.AddAsWrittenAgrees | Bogus/Core/inc/Core_Vector.h:333-349 | The source's add and the corrected one agree unless the key is new and the map full; then the source returns the last index, which holds another key |
| CoreVectorMap.AddAsWrittenReturnsForeignIndex | Bogus/Core/inc/Core_Vector.h:347-348 | On the arena policy, for pairs whose VectorPolicyArena with growth 1 and desired capacity 1 has room for one pair: after add(1, 10), add(2, 20) returns index 0, whose data is 10, while key 2 stays absent; the corrected add returns eInvalidIndex |
| CoreVectorMap.OnePairRoomExample | Bogus/Core/inc/Core_Vector.h:23-25 | 2048-byte pairs with desired capacity 1 over 4 KiB pages reserve one page, which holds (4096 - 64) / 2048 = 1 pair |
| CoreVectorMap.AddAllFresh | Bogus/Core/inc/Core_Vector.h:333-349 | Adding pairs with new, distinct keys into a map with room appends them in order and keeps the keys distinct |
| ArenaTyped.KeptBytesIndex | Bogus/Core/src/Core_Arena.cpp:68-76 | Bytes kept as a prefix are equal index by index |
| ArenaTyped.ZeroRange | Bogus/Core/inc/Core_Arena.h:57 | The memset: exactly the n bytes from the start offset become zero and every other byte is kept |
| ArenaTyped.RawPush | Bogus/Core/src/Core_Arena.cpp:62-91 | ArenaPush with memory: the arena changes as ArenaPush says, and every previously committed byte is kept |
| ArenaTyped.PushArrayNoZeroAligned | Bogus/Core/inc/Core_Arena.h:47-51 | Exactly one ArenaPush of sizeof(T) * count bytes at the caller's alignment, whose arena and block are returned unchanged; no committed byte changes |
| ArenaTyped.PushArrayAligned | Bogus/Core/inc/Core_Arena.h:53-59 | The same push as the non-zeroing helper. On success every byte of the block is zero and every byte below the old cursor is kept; on failure nothing differs from the non-zeroing push |
| ArenaTyped.ZeroBlock | Bogus/Core/inc/Core_Arena.h:57 | Zeroing a block at or past the old cursor zeroes it and keeps every byte below the old cursor |
| ArenaTyped.TypedAlign | Bogus/Core/inc/Core_Arena.h:63 | MAX( 8, ALIGNOF( T ) ) is a power of two that is at least 8 and at least T's alignment |
| ArenaTyped.Pow2DividesLarger | Bogus/Core/inc/Core_Arena.h:63 | A power of two divides every larger power of two |
| ArenaTyped.TypedAlignDivides | Bogus/Core/inc/Core_Arena.h:63 | An offset aligned to MAX( 8, ALIGNOF( T ) ) is aligned for 8 and for T |
| ArenaTyped.TypedPushAligned | Bogus/Core/inc/Core_Arena.h:61-69 | A typed push that succeeds hands out an offset that is a multiple of 8 and of T's alignment |
| ArenaTyped.PushArrayNoZero | Bogus/Core/inc/Core_Arena.h:61-64 | One ArenaPush of sizeof(T) * count at MAX( 8, ALIGNOF( T ) ), the rest of the arena untouched; a block handed out is aligned for 8 and for T |
| ArenaTyped.PushArray | Bogus/Core/inc/Core_Arena.h:66-69 | The same push as PushArrayNoZero, and a block handed out is also all zero |
| ArenaTyped.PushVectorNoZeroAsWritten | Bogus/Core/inc/Core_Arena.h:71-75 | As written: an empty static vector with the requested capacity over the block, or over null (offset 0) when the push failed |
| ArenaTyped.PushVectorNoZero | Bogus/Core/inc/Core_Arena.h:71-75 | An empty static vector over the pushed block with the requested capacity, or with capacity 0 when the push failed; the arena changes as the one array push |
| ArenaTyped.PushVector | Bogus/Core/inc/Core_Arena.h:77-81 | As PushVectorNoZero over the zeroing push, and its whole storage is zero bytes |
| ArenaTyped.PushPoolNoZero | Bogus/Core/inc/Core_Arena.h:83-87 | An empty pool (no live slot, INVALID free head, invariant holding) over the vector PushVectorNoZero builds |
| ArenaTyped.PushPool | Bogus/Core/inc/Core_Arena.h:89-93 | The same pool over the zeroed vector of PushVector |
| ArenaTyped.ZeroingOnlyChangesTheBlock | Bogus/Core/inc/Core_Arena.h:47-69 | The zeroing and non-zeroing helpers make the same push and differ only inside the block |
| ArenaTyped.SuccessiveBlocksDisjoint | Bogus/Core/src/Core_Arena.cpp:62-91 | Two successive successful pushes hand out non-overlapping blocks, the second after the first |
| ArenaTyped.PushVectorAsWrittenOverNull | Bogus/Core/inc/Core_Arena.h:71-81 | When the push fails, the source's vector sits at null with the requested capacity; its first push_new takes a slot, so the size grows to 1, and that slot's address is null. The corrected vector has capacity 0 and refuses the push |
| CoreString.AssignLiteral | Bogus/Core/inc/Core_String.h:74-80 | Assigning a literal of M chars sets the length to MIN(M - 1, capacity) and copies exactly those chars; the storage after them is kept |
| CoreString.FromLiteral | Bogus/Core/inc/Core_String.h:67-72 | Constructing from a literal gives length MIN(M - 1, capacity) and those chars as content |
| CoreString.CopyAssign | Bogus/Core/inc/Core_String.h:82-87 | Copy assignment gives the right-hand side's length and content; the rest of the storage is kept |
| CoreString.Append | Bogus/Core/inc/Core_String.h:116-122 | With room asserted, the content becomes the old content followed by the first n chars of s, the length grows by n, and the storage after it is kept |
| CoreString.AppendLiteral | Bogus/Core/inc/Core_String.h:89-94 | += literal appends its chars without the terminator |
| CoreString.AppendBuffer | Bogus/Core/inc/Core_String.h:96-100 | += Buffer appends the right-hand side's content |
| CoreString.Terminate | Bogus/Core/inc/Core_String.h:110-114 | With room asserted, a NUL lands right after the content; length, content and every other char are unchanged |
| CoreString.CStr | Bogus/Core/inc/Core_String.h:104-108 | On a terminated buffer, c_str is the storage up to the terminator after the content: the content, then that NUL |
| CoreString.AppendTerminatedIff | Bogus/Core/inc/Core_String.h:104-122 | After an append the buffer is terminated exactly when the old storage already held a NUL right after the new end |
| CoreString.AppendBreaksTerminator | Bogus/Core/inc/Core_String.h:104-122 | Concrete input: a terminated buffer stops being one after an append over its terminator |
| CoreString.AppendTwice | Bogus/Core/inc/Core_String.h:116-122 | Two appends leave the whole buffer, storage included, as one append of both pieces would |
| CoreString.TerminateIdempotent | Bogus/Core/inc/Core_String.h:110-114 | Terminating twice is terminating once |
| CoreString.AssignThenAppend | Bogus/Core/inc/Core_String.h:74-114 | Assigning one literal and appending another that fit holds both without terminators, and can be terminated |
| Scenario.MainBuffer | Apps/BaseApp/src/main.cpp:9-14 | Whatever the uninitialised storage and length, the walk-through leaves a terminated buffer of length 20 whose C string is "MyBuffer is amazing!" |
| Scenario.MainArena | Apps/BaseApp/src/main.cpp:16 | NEW_ARENA with 4 KiB pages gives, when the reservation succeeds, a valid arena named "Thunderdome!!" with cursor 64, 64 KiB committed and 64 MiB reserved |
| Scenario.PageSizeFacts | Apps/BaseApp/src/main.cpp:16 | 4 KiB is a power of two dividing both default sizes |
| Scenario.MainVector | Apps/BaseApp/src/main.cpp:20-25 | On the fresh arena, the ten-slot vector sits on the 40 bytes right after the header, which are zero when ArenaPushVector returns; after the four pushes it holds 69, 55, 420, 67, the cursor is at 104 and nothing more is committed |
| Scenario.MainMap | Apps/BaseApp/src/main.cpp:37-45 | The default map exists when its reservation succeeds. It holds (0,69), (1,420), (2,911) followed by (hash,1234) unless the hash collides with 0, 1 or 2, and its keys stay distinct |
| Scenario.FixedKeys | Apps/BaseApp/src/main.cpp:42-44 | The keys 0, 1 and 2 are distinct |
| Scenario.FirstThreeAdds | Apps/BaseApp/src/main.cpp:42-44 | The three fixed adds land in order in the empty map |
| Scenario.HashedAdd | Apps/BaseApp/src/main.cpp:45 | The hashed key is appended unless it collides, in which case the map is unchanged |

## Left out

- `ArenaRelease`, the destructors and the OS memory shim are not modelled. `Reserve` becomes the `reserveOk` parameter of `ArenaAlloc`. `Commit` becomes the `committed` field, with the bytes of newly committed pages as the `pages` parameter of `ArenaTyped.RawPush`. `GetPageSize` becomes a parameter, fixed at 4 KiB in the walk-through.
- `AlignSize` (called by `ArenaPush`) is not part of this model; it is taken to be `Globals.RoundUp`, rounding up to a multiple of the commit increment. That needs a nonzero increment, so `CoreArena.ArenaAlloc` requires `commitSize > 0` and `CoreVector.NewArenaVector` requires `growth > 0`. The source accepts a zero growth (the template parameter at Bogus/Core/inc/Core_Vector.h:15) and then reaches `AlignSize( 64, 0 )` in the header push of `ArenaAlloc`, whose behaviour this model does not know.
- `String::HashToken`, `CalcHash` and `Hash32` are not modelled. An arena's name is its string, and the hash of "Key1" is a parameter of `Scenario.MainMap`.
- Raw pointers, placement new, `reinterpret_cast` and `memcpy` are replaced by offsets and sequences. The `ElementPool` dead-marker overlay becomes the tagged slot `Slot<T>`, so a live element whose first word is `0xdeadffff` is not misread as dead. The `static_assert` on the element size has no counterpart.
- ArenaTyped.PushArrayAligned: the source `memset`s through the returned pointer even when the push failed (null); the model zeroes only a block it was given.
- ArenaTyped.PushPoolNoZero and ArenaTyped.PushPool: the source's `ElementPool( pData, uiCapacity )` constructor and `VectorStatic` type are not defined in the repository. The helpers are modelled by intent, as a pool over a static vector of the block.
- `Vector::find` and `remove` index `pData` without calling it. They are modelled as reading `pData()[i]`.
- Globals.Kilobytes and Globals.Megabytes: modelled for `int` arguments, the only kind the core passes (the literal 64 in Bogus/Core/inc/Core_Arena.h:11-12); the macros shift in the argument's own type, and wider or unsigned argument types are not modelled.
- Scenario.MainMap: `Vector<Uint32MapPair>` at Apps/BaseApp/src/main.cpp:38 is ill-formed as written, because `Vector` takes its element type from `tElemAllocator::ELEMTYPE` (Bogus/Core/inc/Core_Vector.h:102-104) and `VectorMapPair` declares no such member (Bogus/Core/inc/Core_Vector.h:301-315). The model reads it as the default arena-policy vector of pairs, `Vector<VectorPolicyArena<Uint32MapPair>>`, the only policy with a default constructor.
- CoreVector.DefaultArenaVector: element sizes are bounded by max_uint32 bytes, so that the commit increment of 16 elements stays in uint64; pages are bounded by 4 KiB, the size the walk-through uses.
- `Scenario.MainVector`: `push_back` is not defined in the repository; it is modelled as `push`.
- Scenario.MainVector: a static vector's elements live in the model's `elems` and are not written into the `Region` bytes of its block, so the model says nothing about bytes 64..79 after the pushes (the program stores the four uint32 values there); the zeroing is stated for the region as ArenaPushVector returns it.
- CoreVector.NewArenaVector: the source dereferences the arena without a null check; a refused reservation has no vector here (`None`).
- CoreVector.Pop: the static policy's `pop` decrements without a check; an empty static vector is excluded by a precondition.
- The `Buffer` length is uninitialised after default construction. `CoreString` requires an initialised buffer; `Scenario.MainBuffer` holds for any initial length and storage.
- CoreString.Append: the source's assertion sums two uint32 values that could wrap; the model states the room check without wrap-around.
- uint64 wrap-around in positions and sizes is excluded by bound preconditions (`PushFits`, `BoundedRequest`, `TypedRequest`). Inside `ALIGNUP_POW2` it is written out, and the uint32 counters of `ElementPool` wrap explicitly.
- `BGASSERT` is not modelled as a side effect. Where execution returns after it, the return value is modelled; otherwise it is a precondition.
- `Queue`, a ring buffer over the same storage policies, is not part of this model: no file of the repository defines it.
- `printf`, `getchar` and `ArenaRelease` in `main.cpp` are I/O or teardown and are not modelled.
- CoreArena.ArenaPopTo: a target past the cursor or outside the committed prefix is excluded by the precondition. The code reports it through `BGASSERT`, which returns, and then sets the cursor to MAX( header, target ) anyway (Bogus/Core/src/Core_Arena.cpp:97-100).
- CoreArena.ArenaPop and CoreArena.PushPopRoundTrip: inherit that precondition. On a full arena (cursor at the committed end) a pop whose size is not below the cursor targets the cursor itself, which is not below the committed end; the code reports it and leaves the cursor where it is, and the model excludes it. `PushPopRoundTrip` therefore requires `size > 0 || pos < committed`.
- CoreVector.NewArenaVector: when the growth exceeds the desired capacity, as for the default vector with elements above 4 MiB, `ArenaAlloc` commits the rounded growth increment without capping it at the reservation (Bogus/Core/src/Core_Arena.cpp:18, 33). The committed end then lies past the reservation, the arena is not `Valid`, and such a vector is outside every vector operation, all of which require the vector invariant.
- ElementPool.Get: a dead handle in range is excluded by the precondition. The code reports it and returns the dead slot's address (Bogus/Core/inc/Core_Vector.h:272-273).
- CoreVector.Find, CoreVector.RemoveElem, CoreVector.Front, CoreVector.Back: the const `pData()` of `VectorPolicyStatic` (Bogus/Core/inc/Core_Vector.h:77) calls `pData()`, which inside a const member is itself, so it recurses without end. Every const read of a static-policy vector reaches it: `front`, `back`, `operator[] const`, `find` and so `remove_elem`. The model reads it as returning `m_pData`, as the non-const overload does (line 76). On the arena policy, the one `VectorMap` can be built with, the const reads are well-defined.
- CoreVector.PushNew: its flag says a slot was taken. The source returns the slot's address instead, which is null for slot 0 of a static vector at address 0; the model's flag is then true while `push` sees null and skips the copy. Only `ArenaPushVector` over a failed push builds such a vector (see ArenaTyped.PushVectorAsWrittenOverNull).
- Vector iterators (`begin`/`end`), `VectorMap::get_data`'s reference result and the pool's `operator[]` are plain reads: `GetData`, `Get`, `Front` and `Back` carry no contract beyond their preconditions.

## Findings

| source | as written | input that shows it | evidently intended | confidence | as-written member | corrected member |
|---|---|---|---|---|---|---|
| Bogus/Core/inc/Globals.h:29-31 | `CLAMP` expands to unparenthesised `MIN`/`MAX`, so the ternary condition binds to `x` or `lo < hi` instead of `MAX(x, lo) < hi` | CLAMP(10, 0, 5) evaluates to 10 | min(max(x, lo), hi), i.e. 5 | high; not executed | Globals.ClampAsWritten, Globals.ClampAsWrittenMissesUpperBound | Globals.Clamp |
| Bogus/Core/inc/Core_Vector.h:347-348 | `add` returns `size() - 1` even when `push` silently dropped the new pair | a `VectorPolicyArena` map of 2048-byte pairs with growth 1 and desired capacity 1 over 4 KiB pages holds (4096 - 64) / 2048 = 1 pair; after add(1, 10), add(2, 20) returns 0, the index of key 1 | eInvalidIndex for a pair that was not stored | high; not executed | CoreVectorMap.AddAsWritten, CoreVectorMap.AddAsWrittenReturnsForeignIndex, CoreVectorMap.OnePairRoomExample | CoreVectorMap.Add |
| Bogus/Core/inc/Core_Arena.h:71-81 | `ArenaPushVector[NoZero]` wraps the helper's pointer with the requested capacity even when the push returned null | ArenaPushVector<T>( pArena, n ) with n > 0 on an arena whose aligned cursor plus n * sizeof(T) passes the reservation: the vector sits at null with capacity n; its first push_new grows the size to 1, constructs the element through null and returns null, which push takes as failure | a vector with no storage that refuses pushes | medium; not executed | ArenaTyped.PushVectorNoZeroAsWritten, ArenaTyped.PushVectorAsWrittenOverNull | ArenaTyped.PushVectorNoZero |

=== FILE: arena.dfy ===
/**
 * The bump allocator of Core_Arena.cpp and the records and constants of
 * Core_Arena.h. An arena is a reserved address range whose first bytes hold
 * the arena's own header; `pos` is the bump cursor, `committed` the prefix
 * that has physical backing and `reserved` the whole range. All positions
 * are byte offsets from the start of the range. The OS calls are
 * parameters: the page size and whether the reservation succeeded.
 */
module CoreArena {
  import opened Globals
  import opened Wrappers

  /** ArenaAllocParams: requested reservation, commit increment and name token. */
  datatype ArenaParams = ArenaParams(reserveSize: nat, commitSize: nat, name: string)

  /**
   * The Arena header. Core_Arena.cpp reads and writes `uiBasePos`, the first
   * offset usable by callers, so the record carries it beside the fields
   * Core_Arena.h declares.
   */
  datatype Arena = Arena(params: ArenaParams, pos: nat, basePos: nat, committed: nat, reserved: nat)

  /** The result of ArenaPush: the updated header and the offset of the block, None for a null return. */
  datatype PushResult = PushResult(arena: Arena, offset: Option<nat>)

  // ---------------------------------------------------------------------
  // Constants
  // ---------------------------------------------------------------------

  /** Size and alignment of one field of a C++ record on a 64-bit target. */
  datatype FieldLayout = FieldLayout(size: nat, align: nat)

  predicate PositiveAligns(fields: seq<FieldLayout>)
  {
    forall i :: 0 <= i < |fields| ==> fields[i].align > 0
  }

  /** The offset just past the last field, each field placed at its alignment. */
  function FieldsEnd(fields: seq<FieldLayout>): nat
    requires PositiveAligns(fields)
  {
    if |fields| == 0 then 0
    else
      var last := fields[|fields| - 1];
      RoundUp(FieldsEnd(fields[..|fields| - 1]), last.align) + last.size
  }

  function MaxAlign(fields: seq<FieldLayout>): (r: nat)
    ensures r >= 1
  {
    if |fields| == 0 then 1 else Max(MaxAlign(fields[..|fields| - 1]), fields[|fields| - 1].align)
  }

  /** sizeof: the end of the last field rounded up to the strictest alignment. */
  function SizeOf(fields: seq<FieldLayout>): nat
    requires PositiveAligns(fields)
  {
    RoundUp(FieldsEnd(fields), MaxAlign(fields))
  }

  const U32Field := FieldLayout(4, 4)
  const U64Field := FieldLayout(8, 8)
  const PointerField := FieldLayout(8, 8)

  /** A record used as a field: its sizeof, placed at its strictest alignment. */
  function Nested(fields: seq<FieldLayout>): (r: FieldLayout)
    requires PositiveAligns(fields)
    ensures r.align > 0
  {
    FieldLayout(SizeOf(fields), MaxAlign(fields))
  }

  /** String::HashToken: data pointer, length, hash. */
  const HashTokenLayout := [PointerField, U32Field, U32Field]
  /** ArenaAllocParams: reserve size, commit size, name token. */
  const ArenaParamsLayout := [U64Field, U64Field, Nested(HashTokenLayout)]
  /** Arena: the parameters, then pos, committed, reserved and basePos. */
  const ArenaLayout := [Nested(ArenaParamsLayout), U64Field, U64Field, U64Field, U64Field]

  /** ARENA_HEADER_SIZE = sizeof( Arena ). */
  const ArenaHeaderSize: nat := 64
  /** ALIGNOF( Arena ), the alignment of the empty push made by ArenaAlloc. */
  const ArenaAlign: nat := 8

  const DefaultReserveSize: nat := Megabytes(64)
  const DefaultCommitSize: nat := Kilobytes(64)

  /** NEW_ARENA: the default sizes with a caller-supplied name. */
  function NewArenaParams(name: string): ArenaParams
  {
    ArenaParams(DefaultReserveSize, DefaultCommitSize, name)
  }

  lemma FieldsEndSnoc(fields: seq<FieldLayout>, f: FieldLayout)
    requires PositiveAligns(fields) && f.align > 0
    ensures PositiveAligns(fields + [f])
    ensures FieldsEnd(fields + [f]) == RoundUp(FieldsEnd(fields), f.align) + f.size
    ensures MaxAlign(fields + [f]) == Max(MaxAlign(fields), f.align)
  {
    assert (fields + [f])[..|fields|] == fields;
  }

  /** Appending an 8-aligned field of size 8k to an 8-aligned prefix adds its size. */
  lemma AppendAlignedField(fields: seq<FieldLayout>, f: FieldLayout)
    requires PositiveAligns(fields) && f.align > 0 && FieldsEnd(fields) % f.align == 0
    ensures PositiveAligns(fields + [f])
    ensures FieldsEnd(fields + [f]) == FieldsEnd(fields) + f.size
    ensures MaxAlign(fields + [f]) == Max(MaxAlign(fields), f.align)
  {
    FieldsEndSnoc(fields, f);
    RoundUpOfMultiple(FieldsEnd(fields), f.align);
  }

  lemma HashTokenSize()
    ensures SizeOf(HashTokenLayout) == 16 && MaxAlign(HashTokenLayout) == 8
  {
    AppendAlignedField([], PointerField);
    AppendAlignedField([PointerField], U32Field);
    AppendAlignedField([PointerField, U32Field], U32Field);
    assert [PointerField, U32Field] + [U32Field] == HashTokenLayout;
    RoundUpOfMultiple(16, 8);
  }

  /** Two uint64 fields followed by a 16-byte, 8-aligned field: 32 bytes, 8-aligned. */
  lemma ParamsFieldsSize()
    ensures SizeOf([U64Field, U64Field, FieldLayout(16, 8)]) == 32
    ensures MaxAlign([U64Field, U64Field, FieldLayout(16, 8)]) == 8
  {
    var t := FieldLayout(16, 8);
    AppendAlignedField([], U64Field);
    AppendAlignedField([U64Field], U64Field);
    AppendAlignedField([U64Field, U64Field], t);
    assert [U64Field, U64Field] + [t] == [U64Field, U64Field, t];
    RoundUpOfMultiple(32, 8);
  }

  lemma ArenaParamsSize()
    ensures SizeOf(ArenaParamsLayout) == 32 && MaxAlign(ArenaParamsLayout) == 8
  {
    HashTokenSize();
    assert Nested(HashTokenLayout) == FieldLayout(16, 8);
    assert ArenaParamsLayout == [U64Field, U64Field, FieldLayout(16, 8)];
    ParamsFieldsSize();
  }

  /** A 32-byte, 8-aligned field followed by four uint64 fields: 64 bytes, 8-aligned. */
  lemma HeaderFieldsSize()
    ensures SizeOf([FieldLayout(32, 8), U64Field, U64Field, U64Field, U64Field]) == 64
    ensures MaxAlign([FieldLayout(32, 8), U64Field, U64Field, U64Field, U64Field]) == 8
  {
    var p, u := FieldLayout(32, 8), U64Field;
    var l1, l2, l3, l4 := [p], [p, u], [p, u, u], [p, u, u, u];
    AppendAlignedField([], p);
    assert [] + [p] == l1;
    assert FieldsEnd(l1) == 32 && MaxAlign(l1) == 8;
    AppendAlignedField(l1, u);
    assert l1 + [u] == l2;
    assert FieldsEnd(l2) == 40 && MaxAlign(l2) == 8;
    AppendAlignedField(l2, u);
    assert l2 + [u] == l3;
    assert FieldsEnd(l3) == 48 && MaxAlign(l3) == 8;
    AppendAlignedField(l3, u);
    assert l3 + [u] == l4;
    assert FieldsEnd(l4) == 56 && MaxAlign(l4) == 8;
    AppendAlignedField(l4, u);
    assert l4 + [u] == [p, u, u, u, u];
    RoundUpOfMultiple(64, 8);
  }

  /** ARENA_HEADER_SIZE is the size of the Arena record, and ALIGNOF( Arena ) is 8. */
  lemma ArenaHeaderSizeIsSizeOf()
    ensures SizeOf(ArenaLayout) == ArenaHeaderSize
    ensures MaxAlign(ArenaLayout) == ArenaAlign
  {
    ArenaParamsSize();
    assert Nested(ArenaParamsLayout) == FieldLayout(32, 8);
    assert ArenaLayout == [FieldLayout(32, 8), U64Field, U64Field, U64Field, U64Field];
    HeaderFieldsSize();
  }

  /** The defaults are a 64 MiB reservation and a 64 KiB commit increment. */
  lemma DefaultSizes()
    ensures DefaultReserveSize == 64 * 1024 * 1024
    ensures DefaultCommitSize == 64 * 1024
  {
  }

  // ---------------------------------------------------------------------
  // The header invariant
  // ---------------------------------------------------------------------

  /**
   * header <= pos <= committed <= reserved, all within uint64, with the
   * user region starting right after the header and a usable commit increment.
   */
  predicate Valid(a: Arena)
  {
    && a.basePos == ArenaHeaderSize
    && a.basePos <= a.pos <= a.committed <= a.reserved <= MaxUint64
    && a.params.commitSize > 0
  }

  // ---------------------------------------------------------------------
  // Operations
  // ---------------------------------------------------------------------

  /** ArenaGetPos: the cursor, which on a valid arena lies between the header and the committed end. */
  function GetPos(a: Arena): (r: nat)
    ensures Valid(a) ==> ArenaHeaderSize <= r <= a.committed
  {
    a.pos
  }

  /** ArenaGetBegin: the offset of the first byte after the header. */
  function GetBegin(a: Arena): (r: nat)
    ensures Valid(a) ==> r == ArenaHeaderSize && r <= GetPos(a)
  {
    a.basePos
  }

  /**
   * What ArenaPush needs of its arguments so that its uint64 arithmetic does
   * not wrap, and so that the commit increment it rounds to is usable
   * whenever it has to commit.
   */
  predicate PushFits(a: Arena, size: nat, align: nat)
  {
    && a.pos <= MaxUint64 && align <= MaxUint64
    && AlignUpPow2(a.pos, align) + size <= MaxUint64
    && (a.committed < AlignUpPow2(a.pos, align) + size ==> a.params.commitSize > 0)
  }

  /**
   * ArenaPush: align the cursor up, commit more of the reservation in whole
   * commit increments (clamped to the reservation) if the block ends past
   * the committed prefix, then hand out the block or fail. A failed push
   * keeps whatever it committed.
   */
  function ArenaPush(a: Arena, size: nat, align: nat): (r: PushResult)
    requires PushFits(a, size, align)
    ensures r.arena == a.(pos := r.arena.pos, committed := r.arena.committed)
    ensures r.offset.Some? ==> r.arena.pos == r.offset.value + size <= r.arena.committed
    ensures r.offset.None? ==> r.arena.pos == a.pos
    ensures IsPow2(align) && a.pos + align - 1 <= MaxUint64 && r.offset.Some? ==>
              && a.pos <= r.offset.value < a.pos + align
              && r.offset.value % align == 0
    ensures var end := AlignUpPow2(a.pos, align) + size;
            && (end <= a.committed ==> r.arena.committed == a.committed)
            && (a.committed < end ==> r.arena.committed == Min(RoundUp(end, a.params.commitSize), a.reserved))
            && (a.committed <= a.reserved ==>
                  && a.committed <= r.arena.committed <= a.reserved
                  && (r.offset.Some? <==> end <= a.reserved))
            && (r.arena.committed > a.committed ==>
                  || r.arena.committed == a.reserved
                  || (&& r.arena.committed % a.params.commitSize == 0
                      && end <= r.arena.committed < end + a.params.commitSize))
  {
    var current := AlignUpPow2(a.pos, align);
    var newPos := current + size;
    var committed :=
      if a.committed < newPos then Min(RoundUp(newPos, a.params.commitSize), a.reserved)
      else a.committed;
    AlignUpPow2PropertiesWhen(a.pos, align);
    if committed >= newPos then
      PushResult(a.(pos := newPos, committed := committed), Some(current))
    else
      PushResult(a.(committed := committed), None)
  }

  /**
   * ArenaPopTo: rewind the cursor, never below the header. The two
   * assertions, that the target is not past the cursor and lies in the
   * committed prefix, are taken as the precondition; the code reports a
   * violation and still moves the cursor, a case left out here.
   */
  function ArenaPopTo(a: Arena, target: nat): (r: Arena)
    requires target <= a.pos && target < a.committed
    ensures r == a.(pos := r.pos)
    ensures r.pos >= ArenaHeaderSize
    ensures target >= ArenaHeaderSize ==> r.pos == target
    ensures target < ArenaHeaderSize ==> r.pos == ArenaHeaderSize
    ensures Valid(a) ==> Valid(r) && r.pos <= a.pos
  {
    a.(pos := Max(ArenaHeaderSize, target))
  }

  /**
   * ArenaPop: pop `size` bytes; a size that is not below the cursor leaves
   * the target at the cursor itself. Either way the target goes through
   * ArenaPopTo, whose assertions become this precondition.
   */
  function ArenaPop(a: Arena, size: nat): (r: Arena)
    requires (if size < a.pos then a.pos - size else a.pos) < a.committed
    ensures size < a.pos ==> r == ArenaPopTo(a, a.pos - size)
    ensures size >= a.pos && a.pos >= ArenaHeaderSize ==> r == a
    ensures Valid(a) ==> Valid(r)
  {
    var current := GetPos(a);
    var newPos := if size < current then current - size else current;
    ArenaPopTo(a, newPos)
  }

  /** ArenaClear: back to the header; committed pages are kept. */
  function ArenaClear(a: Arena): (r: Arena)
    requires 0 < a.committed
    ensures r == a.(pos := ArenaHeaderSize)
    ensures Valid(a) ==> Valid(r)
  {
    ArenaPopTo(a, 0)
  }

  /**
   * ArenaAlloc: reserve the page-rounded reservation (the OS may refuse, which
   * gives a null arena), commit the page-rounded increment, write the header
   * with the cursor just past it, then make an empty push at the header's
   * own alignment.
   */
  function ArenaAlloc(params: ArenaParams, pageSize: nat, reserveOk: bool): (r: Option<Arena>)
    requires IsPow2(pageSize) && pageSize <= MaxUint64
    requires params.reserveSize + pageSize - 1 <= MaxUint64
    requires params.commitSize + pageSize - 1 <= MaxUint64
    requires params.commitSize > 0
    ensures r.Some? <==> reserveOk
    ensures r.Some? ==>
              && r.value.params == params
              && r.value.reserved == RoundUp(params.reserveSize, pageSize)
              && r.value.pos == ArenaHeaderSize
              && r.value.basePos == ArenaHeaderSize
    ensures r.Some? && RoundUp(params.commitSize, pageSize) >= ArenaHeaderSize ==>
              r.value.committed == RoundUp(params.commitSize, pageSize)
    ensures r.Some? && ArenaHeaderSize <= RoundUp(params.reserveSize, pageSize)
              && RoundUp(params.commitSize, pageSize) <= RoundUp(params.reserveSize, pageSize) ==>
              Valid(r.value)
  {
    if !reserveOk then None
    else
      AlignUpPow2IsRoundUp(params.reserveSize, pageSize);
      AlignUpPow2IsRoundUp(params.commitSize, pageSize);
      var reserve := AlignUpPow2(params.reserveSize, pageSize);
      var commit := AlignUpPow2(params.commitSize, pageSize);
      var header := Arena(params, ArenaHeaderSize, ArenaHeaderSize, commit, reserve);
      SmallPowersOfTwo();
      AlignUpPow2Properties(ArenaHeaderSize, ArenaAlign);
      Some(ArenaPush(header, 0, ArenaAlign).arena)
  }

  // ---------------------------------------------------------------------
  // Properties
  // ---------------------------------------------------------------------

  /**
   * A push of `size` bytes at a power-of-two alignment, whose worst-case end
   * stays below 2^64 when started from anywhere in the reservation.
   */
  predicate BoundedRequest(reserved: nat, size: nat, align: nat)
  {
    IsPow2(align) && reserved + align + size <= MaxUint64
  }

  /** A bounded request on a valid arena satisfies ArenaPush's precondition. */
  lemma BoundedRequestFits(a: Arena, size: nat, align: nat)
    requires Valid(a) && BoundedRequest(a.reserved, size, align)
    ensures PushFits(a, size, align)
  {
    AlignUpPow2Properties(a.pos, align);
  }

  /** ArenaPush keeps header <= pos <= committed <= reserved and never moves the cursor back. */
  lemma PushPreservesValid(a: Arena, size: nat, align: nat)
    requires Valid(a) && BoundedRequest(a.reserved, size, align)
    ensures PushFits(a, size, align)
    ensures Valid(ArenaPush(a, size, align).arena)
    ensures ArenaPush(a, size, align).arena.pos >= a.pos
    ensures ArenaPush(a, size, align).arena.committed >= a.committed
  {
    BoundedRequestFits(a, size, align);
  }

  /**
   * Stack discipline: remember the cursor, push, pop back to it. The cursor
   * is restored, the committed size is kept, and pushing the same request
   * again hands out the same block with the same resulting header.
   */
  lemma PushPopRoundTrip(a: Arena, size: nat, align: nat)
    requires Valid(a) && BoundedRequest(a.reserved, size, align)
    requires size > 0 || a.pos < a.committed
    ensures PushFits(a, size, align)
    ensures var r := ArenaPush(a, size, align);
            r.offset.Some? ==>
              && GetPos(a) < r.arena.committed
              && var b := ArenaPopTo(r.arena, GetPos(a));
                 && GetPos(b) == GetPos(a)
                 && b.committed == r.arena.committed
                 && PushFits(b, size, align)
                 && ArenaPush(b, size, align) == r
  {
    BoundedRequestFits(a, size, align);
    var r := ArenaPush(a, size, align);
    if r.offset.Some? {
      var b := ArenaPopTo(r.arena, GetPos(a));
      assert b == a.(committed := r.arena.committed);
    }
  }

  /** One request of a sequence of pushes. */
  datatype PushRequest = PushRequest(size: nat, align: nat)

  /** Apply a sequence of pushes, ignoring the returned blocks. */
  function PushAll(a: Arena, requests: seq<PushRequest>): (r: Arena)
    requires Valid(a)
    requires forall i :: 0 <= i < |requests| ==>
               BoundedRequest(a.reserved, requests[i].size, requests[i].align)
    ensures Valid(r) && r.reserved == a.reserved
    ensures a.pos <= r.pos && a.committed <= r.committed
    decreases |requests|
  {
    if |requests| == 0 then a
    else
      var q := requests[0];
      PushPreservesValid(a, q.size, q.align);
      var next := ArenaPush(a, q.size, q.align).arena;
      PushAll(next, requests[1..])
  }
}

=== FILE: arena_typed.dfy ===
/**
 * The typed helpers of Core_Arena.h: arrays of `count` elements pushed at
 * the element's alignment (at least 8), with or without zeroing, and the
 * static vectors and element pools built over such arrays. To say what
 * zeroing means the arena is paired with the bytes of its committed prefix.
 */
module ArenaTyped {
  import opened Globals
  import opened Wrappers
  import opened CoreArena
  import opened CoreVector
  import opened ElementPool

  newtype byte = b: int | 0 <= b < 256

  /**
   * The bytes the operating system supplies for newly committed pages, by
   * offset: `bytes` for the first offsets, `fill` for every offset beyond.
   */
  datatype Pages = Pages(bytes: seq<byte>, fill: byte)

  /** The byte supplied at offset `i`. */
  function PageByte(pages: Pages, i: nat): byte
  {
    if i < |pages.bytes| then pages.bytes[i] else pages.fill
  }

  /** An arena with the contents of its committed bytes. */
  datatype Region = Region(arena: Arena, mem: seq<byte>)

  /**
   * The element type of a typed helper as the template sees it: sizeof( T )
   * and ALIGNOF( T ). The type parameter names the elements of the vector
   * or pool built over the block.
   */
  datatype ElemType<T> = ElemType(size: nat, align: nat)

  /** The slots of a pool over an array of T: one slot per element cell. */
  function SlotsOf<T>(ty: ElemType<T>): ElemType<Slot<T>>
  {
    ElemType(ty.size, ty.align)
  }

  /** What the vector helpers return: the region after the push and the vector over its block. */
  datatype PushedVector<T> = PushedVector(region: Region, vec: Vector<T>)

  /** What the pool helpers return: the region after the push and the pool over its block. */
  datatype PushedPool<T> = PushedPool(region: Region, pool: Pool<T>)

  predicate RegionOk(g: Region)
  {
    Valid(g.arena) && |g.mem| == g.arena.committed
  }

  /** Every byte of `before` is still there, unchanged, at the start of `after`. */
  predicate KeepsBytes(before: seq<byte>, after: seq<byte>)
  {
    |before| <= |after| && after[..|before|] == before
  }

  lemma KeptBytesIndex(before: seq<byte>, after: seq<byte>)
    requires KeepsBytes(before, after)
    ensures forall i :: 0 <= i < |before| ==> after[i] == before[i]
  {
    forall i | 0 <= i < |before|
      ensures after[i] == before[i]
    {
      assert after[..|before|][i] == after[i];
    }
  }

  /** The `n` bytes from `off` lie inside `mem` and are all zero. */
  predicate BlockZeroed(mem: seq<byte>, off: nat, n: nat)
  {
    off + n <= |mem| && forall i :: off <= i < off + n ==> mem[i] == 0
  }

  /** The first `keep` bytes of `before` are still there, unchanged, in `after`. */
  predicate PrefixKept(before: seq<byte>, after: seq<byte>, keep: nat)
  {
    keep <= |before| && keep <= |after| && forall i :: 0 <= i < keep ==> after[i] == before[i]
  }

  /** `mem` with `n` bytes from `from` set to zero: the memset of the zeroing helpers. */
  function ZeroRange(mem: seq<byte>, from: nat, n: nat): (r: seq<byte>)
    requires from + n <= |mem|
    ensures |r| == |mem|
    ensures forall i :: from <= i < from + n ==> r[i] == 0
    ensures forall i :: 0 <= i < |mem| && !(from <= i < from + n) ==> r[i] == mem[i]
  {
    mem[..from] + seq(n, _ => 0 as byte) + mem[from + n..]
  }

  /** Zeroing a block that starts at or after `keep` leaves the first `keep` kept bytes alone. */
  lemma ZeroKeepsPrefix(before: seq<byte>, after: seq<byte>, keep: nat, from: nat, n: nat)
    requires KeepsBytes(before, after) && keep <= |before| && keep <= from && from + n <= |after|
    ensures forall i :: 0 <= i < keep ==> ZeroRange(after, from, n)[i] == before[i]
  {
    KeptBytesIndex(before, after);
  }

  /**
   * ArenaPush with memory: the bytes of newly committed pages come from the
   * operating system (`pages`, by offset); committed bytes never change.
   */
  function RawPush(g: Region, size: nat, align: nat, pages: Pages): (r: (Region, Option<nat>))
    requires RegionOk(g) && BoundedRequest(g.arena.reserved, size, align)
    ensures RegionOk(r.0) && KeepsBytes(g.mem, r.0.mem)
    ensures PushFits(g.arena, size, align)
    ensures r.0.arena == ArenaPush(g.arena, size, align).arena && r.1 == ArenaPush(g.arena, size, align).offset
  {
    PushPreservesValid(g.arena, size, align);
    var p := ArenaPush(g.arena, size, align);
    var base := g.arena.committed;
    var grown := seq(p.arena.committed - base, (i: nat) => PageByte(pages, base + i));
    assert (g.mem + grown)[..|g.mem|] == g.mem;
    (Region(p.arena, g.mem + grown), p.offset)
  }

  /**
   * ArenaPushArrayNoZeroAligned: exactly one ArenaPush of sizeof(T) * count
   * bytes at the caller's alignment, its result handed back unchanged.
   */
  function PushArrayNoZeroAligned(g: Region, elemSize: nat, count: nat, align: nat, pages: Pages): (r: (Region, Option<nat>))
    requires count <= MaxUint32
    requires RegionOk(g) && BoundedRequest(g.arena.reserved, elemSize * count, align)
    ensures RegionOk(r.0) && KeepsBytes(g.mem, r.0.mem)
    ensures PushFits(g.arena, elemSize * count, align)
    ensures var p := ArenaPush(g.arena, elemSize * count, align);
            r.0.arena == p.arena && r.1 == p.offset
  {
    RawPush(g, elemSize * count, align, pages)
  }

  /**
   * ArenaPushArrayAligned: the same push, then the block is zeroed. The
   * source zeroes through the returned pointer even when it is null; the
   * model zeroes only a block it was given.
   */
  function PushArrayAligned(g: Region, elemSize: nat, count: nat, align: nat, pages: Pages): (r: (Region, Option<nat>))
    requires count <= MaxUint32
    requires RegionOk(g) && BoundedRequest(g.arena.reserved, elemSize * count, align)
    ensures RegionOk(r.0)
    ensures var n := PushArrayNoZeroAligned(g, elemSize, count, align, pages);
            && r.0.arena == n.0.arena && r.1 == n.1
            && (r.1.None? ==> r.0 == n.0)
    ensures r.1.Some? ==> BlockZeroed(r.0.mem, r.1.value, elemSize * count) && PrefixKept(g.mem, r.0.mem, g.arena.pos)
  {
    var pushed := PushArrayNoZeroAligned(g, elemSize, count, align, pages);
    match pushed.1
    case None => pushed
    case Some(off) =>
      assert g.arena.pos <= off;
      (ZeroBlock(g, pushed.0, off, elemSize * count), pushed.1)
  }

  /** The memset of the zeroing helpers: `n` bytes from `off` of the pushed region cleared, the bytes kept from before the push left alone. */
  function ZeroBlock(g: Region, h: Region, off: nat, n: nat): (r: Region)
    requires RegionOk(h) && KeepsBytes(g.mem, h.mem)
    requires g.arena.pos <= |g.mem| && g.arena.pos <= off && off + n <= |h.mem|
    ensures RegionOk(r) && r.arena == h.arena
    ensures BlockZeroed(r.mem, off, n) && PrefixKept(g.mem, r.mem, g.arena.pos)
  {
    ZeroKeepsPrefix(g.mem, h.mem, g.arena.pos, off, n);
    Region(h.arena, ZeroRange(h.mem, off, n))
  }

  /** MAX( 8, ALIGNOF( T ) ): the alignment the typed helpers use. */
  function TypedAlign(elemAlign: nat): (r: nat)
    requires IsPow2(elemAlign)
    ensures IsPow2(r) && 8 <= r && elemAlign <= r
    ensures r == 8 || r == elemAlign
  {
    SmallPowersOfTwo();
    Max(8, elemAlign)
  }

  /** A power of two divides every larger power of two. */
  lemma Pow2DividesLarger(a: nat, b: nat)
    requires IsPow2(a) && IsPow2(b) && a <= b
    ensures b % a == 0
  {
    var i, j := Log2(a), Log2(b);
    if j < i {
      Pow2Monotone(j + 1, i);
      Pow2Add(j, 1);
    }
    Pow2Add(i, j - i);
    assert b == a * Pow2(j - i);
    DivModUnique(b, a, Pow2(j - i), 0);
  }

  /** Divisibility is transitive. */
  lemma ModTransitive(x: nat, b: nat, a: nat)
    requires a > 0 && b > 0 && x % b == 0 && b % a == 0
    ensures x % a == 0
  {
    var q, m := x / b, b / a;
    assert x == b * q && b == a * m;
    assert x == a * (m * q);
    DivModUnique(x, a, m * q, 0);
  }

  /** A block aligned to MAX( 8, ALIGNOF( T ) ) is aligned for 8 bytes and for T. */
  lemma TypedAlignDivides(off: nat, elemAlign: nat)
    requires IsPow2(elemAlign)
    ensures off % TypedAlign(elemAlign) == 0 ==> off % 8 == 0 && off % elemAlign == 0
  {
    var align := TypedAlign(elemAlign);
    SmallPowersOfTwo();
    Pow2DividesLarger(8, align);
    Pow2DividesLarger(elemAlign, align);
    if off % align == 0 {
      ModTransitive(off, align, 8);
      ModTransitive(off, align, elemAlign);
    }
  }

  /** The request a typed helper makes is bounded. */
  predicate TypedRequest(g: Region, elemSize: nat, elemAlign: nat, count: nat)
  {
    && count <= MaxUint32
    && RegionOk(g)
    && IsPow2(elemAlign)
    && BoundedRequest(g.arena.reserved, elemSize * count, TypedAlign(elemAlign))
  }

  /** An offset suitable both for 8 bytes and for an element aligned to `elemAlign`. */
  predicate AlignedFor(off: nat, elemAlign: nat)
  {
    elemAlign > 0 && off % 8 == 0 && off % elemAlign == 0
  }

  /** The block a typed push hands out is aligned for 8 bytes and for T. */
  lemma TypedPushAligned(g: Region, elemSize: nat, elemAlign: nat, count: nat)
    requires TypedRequest(g, elemSize, elemAlign, count)
    ensures PushFits(g.arena, elemSize * count, TypedAlign(elemAlign))
    ensures var off := ArenaPush(g.arena, elemSize * count, TypedAlign(elemAlign)).offset;
            off.Some? ==> AlignedFor(off.value, elemAlign)
  {
    var align := TypedAlign(elemAlign);
    PushPreservesValid(g.arena, elemSize * count, align);
    var off := ArenaPush(g.arena, elemSize * count, align).offset;
    if off.Some? {
      assert off.value % align == 0;
      TypedAlignDivides(off.value, elemAlign);
    }
  }

  /** ArenaPushArrayNoZero: the push at MAX( 8, ALIGNOF( T ) ), so the block suits both 8 bytes and T. */
  function PushArrayNoZero(g: Region, elemSize: nat, elemAlign: nat, count: nat, pages: Pages): (r: (Region, Option<nat>))
    requires TypedRequest(g, elemSize, elemAlign, count)
    ensures RegionOk(r.0) && KeepsBytes(g.mem, r.0.mem)
    ensures PushFits(g.arena, elemSize * count, TypedAlign(elemAlign))
    ensures var p := ArenaPush(g.arena, elemSize * count, TypedAlign(elemAlign));
            r.0.arena == p.arena && r.1 == p.offset
    ensures r.1.Some? ==> AlignedFor(r.1.value, elemAlign)
  {
    var r := PushArrayNoZeroAligned(g, elemSize, count, TypedAlign(elemAlign), pages);
    TypedPushAligned(g, elemSize, elemAlign, count);
    r
  }

  /** ArenaPushArray: the same block, zeroed. */
  function PushArray(g: Region, elemSize: nat, elemAlign: nat, count: nat, pages: Pages): (r: (Region, Option<nat>))
    requires TypedRequest(g, elemSize, elemAlign, count)
    ensures RegionOk(r.0)
    ensures PushFits(g.arena, elemSize * count, TypedAlign(elemAlign))
    ensures var p := ArenaPush(g.arena, elemSize * count, TypedAlign(elemAlign));
            r.0.arena == p.arena && r.1 == p.offset
    ensures r.1.Some? ==> AlignedFor(r.1.value, elemAlign)
    ensures r.1.Some? ==> BlockZeroed(r.0.mem, r.1.value, elemSize * count)
  {
    var r := PushArrayAligned(g, elemSize, count, TypedAlign(elemAlign), pages);
    TypedPushAligned(g, elemSize, elemAlign, count);
    r
  }

  /**
   * ArenaPushVectorNoZero as written: a static vector over the block with
   * the requested capacity, even when the push failed and the block is
   * null (offset 0).
   */
  function PushVectorNoZeroAsWritten<T>(g: Region, ty: ElemType<T>, count: nat, pages: Pages): (r: PushedVector<T>)
    requires TypedRequest(g, ty.size, ty.align, count)
    ensures Inv(r.vec) && r.vec.elems == []
    ensures var a := PushArrayNoZero(g, ty.size, ty.align, count, pages);
            && r.region == a.0
            && r.vec.policy == StaticPolicy(if a.1.Some? then a.1.value else 0, count)
  {
    var pushed := PushArrayNoZero(g, ty.size, ty.align, count, pages);
    PushedVector(pushed.0, NewStatic(pushed.1.GetOr(0), count))
  }

  /**
   * ArenaPushVectorNoZero with the failed push reported: a vector over no
   * storage has no capacity, so every push on it is refused.
   */
  function PushVectorNoZero<T>(g: Region, ty: ElemType<T>, count: nat, pages: Pages): (r: PushedVector<T>)
    requires TypedRequest(g, ty.size, ty.align, count)
    ensures Inv(r.vec) && r.vec.elems == []
    ensures var a := PushArrayNoZero(g, ty.size, ty.align, count, pages);
            && r.region == a.0
            && (a.1.Some? ==> r.vec.policy == StaticPolicy(a.1.value, count))
            && (a.1.None? ==> r.vec.policy == StaticPolicy(0, 0))
  {
    var pushed := PushArrayNoZero(g, ty.size, ty.align, count, pages);
    match pushed.1
    case Some(o) => PushedVector(pushed.0, NewStatic(o, count))
    case None => PushedVector(pushed.0, NewStatic(0, 0))
  }

  /** ArenaPushVector: as PushVectorNoZero, over a zeroed block. */
  function PushVector<T>(g: Region, ty: ElemType<T>, count: nat, pages: Pages): (r: PushedVector<T>)
    requires TypedRequest(g, ty.size, ty.align, count)
    ensures Inv(r.vec) && r.vec.elems == []
    ensures var a := PushArray(g, ty.size, ty.align, count, pages);
            && r.region == a.0
            && (a.1.Some? ==> r.vec.policy == StaticPolicy(a.1.value, count))
            && (a.1.None? ==> r.vec.policy == StaticPolicy(0, 0))
    ensures BlockZeroed(r.region.mem, r.vec.policy.data, ty.size * r.vec.policy.capacity)
  {
    var pushed := PushArray(g, ty.size, ty.align, count, pages);
    match pushed.1
    case Some(o) => PushedVector(pushed.0, NewStatic(o, count))
    case None => PushedVector(pushed.0, NewStatic(0, 0))
  }

  /**
   * ArenaPushPoolNoZero: an empty element pool whose slots are the block,
   * with no capacity when the push failed.
   */
  function PushPoolNoZero<T>(g: Region, ty: ElemType<T>, count: nat, pages: Pages): (r: PushedPool<T>)
    requires TypedRequest(g, ty.size, ty.align, count)
    ensures PoolInv(r.pool) && r.pool.count == 0 && r.pool.freeHead == Invalid
    ensures var v := PushVectorNoZero(g, SlotsOf(ty), count, pages);
            r.region == v.region && r.pool.vec == v.vec
  {
    var pushed := PushVectorNoZero(g, SlotsOf(ty), count, pages);
    PushedPool(pushed.region, NewPool(pushed.vec))
  }

  /** ArenaPushPool: the same pool over a zeroed block. */
  function PushPool<T>(g: Region, ty: ElemType<T>, count: nat, pages: Pages): (r: PushedPool<T>)
    requires TypedRequest(g, ty.size, ty.align, count)
    ensures PoolInv(r.pool) && r.pool.count == 0 && r.pool.freeHead == Invalid
    ensures var v := PushVector(g, SlotsOf(ty), count, pages);
            r.region == v.region && r.pool.vec == v.vec
  {
    var pushed := PushVector(g, SlotsOf(ty), count, pages);
    PushedPool(pushed.region, NewPool(pushed.vec))
  }

  // ---------------------------------------------------------------------
  // Properties
  // ---------------------------------------------------------------------

  /**
   * The zeroing and non-zeroing helpers make the same push: same arena, same
   * block; they differ only in the block's bytes, which the zeroing one clears.
   */
  lemma ZeroingOnlyChangesTheBlock(g: Region, elemSize: nat, elemAlign: nat, count: nat, pages: Pages)
    requires TypedRequest(g, elemSize, elemAlign, count)
    ensures var z := PushArray(g, elemSize, elemAlign, count, pages);
            var n := PushArrayNoZero(g, elemSize, elemAlign, count, pages);
            && z.0.arena == n.0.arena && z.1 == n.1
            && (z.1.Some? ==> forall i :: 0 <= i < |z.0.mem| && !(z.1.value <= i < z.1.value + elemSize * count) ==>
                                z.0.mem[i] == n.0.mem[i])
            && (z.1.None? ==> z.0.mem == n.0.mem)
  {
  }

  /** Blocks handed out one after the other do not overlap: the second starts after the first ends. */
  lemma SuccessiveBlocksDisjoint(g: Region, s1: nat, s2: nat, align: nat, pages: Pages)
    requires RegionOk(g)
    requires BoundedRequest(g.arena.reserved, s1, align) && BoundedRequest(g.arena.reserved, s2, align)
    ensures var first := RawPush(g, s1, align, pages);
            var second := RawPush(first.0, s2, align, pages);
            first.1.Some? && second.1.Some? ==> first.1.value + s1 <= second.1.value
  {
    var first := RawPush(g, s1, align, pages);
    assert first.0.arena.reserved == g.arena.reserved;
  }

  /**
   * The source's vector over a failed push claims `count` free slots of
   * null storage. Its first push_new takes slot 0, so the size grows to 1,
   * but that slot's address, the base plus 0 elements, is null: the
   * element is constructed through null and the pointer returned is null.
   * The corrected helper has no slot to take and refuses the push.
   */
  lemma PushVectorAsWrittenOverNull<T>(g: Region, ty: ElemType<T>, count: nat, pages: Pages, x: T)
    requires TypedRequest(g, ty.size, ty.align, count) && count > 0
    requires AlignUpPow2(g.arena.pos, TypedAlign(ty.align)) + ty.size * count > g.arena.reserved
    ensures var v := PushVectorNoZeroAsWritten(g, ty, count, pages).vec;
            && v.policy.data == 0 && v.elems == [] && v.policy.capacity == count
            && PushNew(v, x).1 && PushNew(v, x).0.elems == [x]
            && v.policy.data + |v.elems| * ty.size == 0
    ensures var w := PushVectorNoZero(g, ty, count, pages).vec;
            && w.policy.capacity == 0
            && !PushNew(w, x).1
  {
  }
}

=== FILE: globals.dfy ===
/**
 * The integer helpers of Globals.h: the fixed-width limits, the
 * MIN/MAX/CLAMP macros, the power-of-two align-up macro and the size macros.
 *
 * Integers are unbounded here; uint64 wrap-around is written out where the
 * macro text relies on it (the `xPow2 - 1` of ALIGNUP_POW2).
 */
module Globals {

  const MaxUint32: nat := 0xFFFF_FFFF
  /** INT_MAX: the largest value of the 32-bit `int` a literal argument has. */
  const MaxInt32: nat := 0x7FFF_FFFF
  const Two32: nat := 0x1_0000_0000
  const MaxUint64: nat := 0xFFFF_FFFF_FFFF_FFFF
  const Two64: nat := 0x1_0000_0000_0000_0000

  /** A value stored in a uint32: the integer modulo 2^32, as unsigned increment, decrement and narrowing do. */
  function WrapU32(x: int): (r: nat)
    ensures r < Two32
    ensures 0 <= x < Two32 ==> r == x
    ensures x == -1 ==> r == MaxUint32
    ensures x == Two32 ==> r == 0
  {
    x % Two32
  }

  // ---------------------------------------------------------------------
  // MIN / MAX / CLAMP
  // ---------------------------------------------------------------------

  /** MIN(a, b): the smaller operand. */
  function Min(a: int, b: int): (r: int)
    ensures r <= a && r <= b
    ensures r == a || r == b
  {
    if a < b then a else b
  }

  /** MAX(a, b): the larger operand. */
  function Max(a: int, b: int): (r: int)
    ensures r >= a && r >= b
    ensures r == a || r == b
  {
    if a > b then a else b
  }

  /**
   * CLAMP(x, lo, hi) as its textual expansion actually parses. The macros
   * are not parenthesised, so MIN(MAX(x, lo), hi) expands to
   *   ( ( x > lo ) ? x : lo < hi ) ? ( x > lo ) ? x : lo : hi
   * whose condition is `x` when x > lo and the truth value of `lo < hi`
   * otherwise; a nonzero condition selects MAX(x, lo), a zero one `hi`.
   */
  function ClampAsWritten(x: int, lo: int, hi: int): (r: int)
    ensures x <= lo && lo < hi ==> r == lo
    ensures x <= lo && lo >= hi ==> r == hi
    ensures x > lo && x != 0 ==> r == x
    ensures x > lo && x == 0 ==> r == hi
  {
    var cond := if x > lo then x else (if lo < hi then 1 else 0);
    if cond != 0 then (if x > lo then x else lo) else hi
  }

  /** CLAMP as intended: MIN(MAX(x, lo), hi) with each macro evaluated whole. */
  function Clamp(x: int, lo: int, hi: int): (r: int)
    ensures lo <= hi ==> lo <= r <= hi
    ensures lo <= x <= hi ==> r == x
    ensures lo <= hi && x < lo ==> r == lo
    ensures lo <= hi && x > hi ==> r == hi
  {
    Min(Max(x, lo), hi)
  }

  /** The expanded macro lets a value above `hi` through unclamped. */
  lemma ClampAsWrittenMissesUpperBound()
    ensures ClampAsWritten(10, 0, 5) == 10
    ensures Clamp(10, 0, 5) == 5
    ensures ClampAsWritten(0, -3, 5) == 5
    ensures Clamp(0, -3, 5) == 0
  {
  }

  /**
   * The expansion agrees with the intended clamp exactly when x <= lo, or
   * x <= hi with x nonzero, or x is zero and hi is not positive. A zero
   * strictly inside the range is clamped to hi, and a nonzero x above hi
   * is let through.
   */
  lemma ClampAsWrittenAgreement(x: int, lo: int, hi: int)
    requires lo <= hi
    ensures (ClampAsWritten(x, lo, hi) == Clamp(x, lo, hi))
              <==> (x <= lo || (x <= hi && x != 0) || (x == 0 && hi <= 0))
    ensures x > hi && x != 0 ==> ClampAsWritten(x, lo, hi) != Clamp(x, lo, hi)
    ensures lo < 0 < hi ==> ClampAsWritten(0, lo, hi) != Clamp(0, lo, hi)
  {
  }

  // ---------------------------------------------------------------------
  // Powers of two and bitwise AND
  // ---------------------------------------------------------------------

  function Pow2(k: nat): (r: nat)
    ensures r >= 1
  {
    if k == 0 then 1 else 2 * Pow2(k - 1)
  }

  predicate IsPow2(a: nat)
    decreases a
  {
    a == 1 || (a >= 2 && a % 2 == 0 && IsPow2(a / 2))
  }

  /** The exponent of a power of two. */
  function Log2(a: nat): (k: nat)
    requires IsPow2(a)
    ensures Pow2(k) == a
    decreases a
  {
    if a == 1 then 0 else 1 + Log2(a / 2)
  }

  lemma {:induction false} Pow2Add(a: nat, b: nat)
    ensures Pow2(a + b) == Pow2(a) * Pow2(b)
    decreases a
  {
    if a > 0 {
      Pow2Add(a - 1, b);
    }
  }

  lemma {:induction false} Pow2Monotone(a: nat, b: nat)
    requires a <= b
    ensures Pow2(a) <= Pow2(b)
    decreases b
  {
    if a < b {
      Pow2Monotone(a, b - 1);
    }
  }

  /** Concrete powers of two used by the size macros and the 64-bit mask. */
  lemma Pow2Small()
    ensures Pow2(2) == 4 && Pow2(3) == 8 && Pow2(5) == 32
  {
    assert Pow2(2) == 4;
    assert Pow2(3) == 8;
    assert Pow2(4) == 16;
  }

  lemma Pow2Ten()
    ensures Pow2(10) == 1024
  {
    Pow2Small();
    Pow2Add(5, 5);
  }

  lemma Pow2Twenty()
    ensures Pow2(20) == 1024 * 1024
  {
    Pow2Ten();
    Pow2Add(10, 10);
  }

  lemma Pow2Thirty()
    ensures Pow2(30) == 1024 * 1024 * 1024
  {
    Pow2Ten();
    Pow2Twenty();
    Pow2Add(20, 10);
  }

  lemma Pow2SixtyFour()
    ensures Pow2(64) == Two64
  {
    Pow2Small();
    Pow2Thirty();
    Pow2Add(30, 2);
    Pow2Add(32, 32);
  }

  /** Bitwise AND of two naturals, one bit at a time from the lowest. */
  function BitAnd(x: nat, y: nat): nat
    decreases x
  {
    if x == 0 || y == 0 then 0
    else 2 * BitAnd(x / 2, y / 2) + (if x % 2 == 1 && y % 2 == 1 then 1 else 0)
  }

  /** Multiplication by a nonnegative factor is monotone. */
  lemma MulMonotone(m: int, a: int, b: int)
    requires m >= 0
    ensures a <= b ==> m * a <= m * b
  {
    assert m * b - m * a == m * (b - a);
  }

  /** Euclidean division is unique: a quotient/remainder pair pins down `/` and `%`. */
  lemma DivModUnique(y: int, d: int, q: int, r: int)
    requires d > 0 && 0 <= r < d && y == d * q + r
    ensures y / d == q && y % d == r
  {
    var q0, r0 := y / d, y % d;
    assert y == d * q0 + r0;
    MulMonotone(d, q0 + 1, q);
    MulMonotone(d, q + 1, q0);
    assert d * (q0 + 1) == d * q0 + d;
    assert d * (q + 1) == d * q + d;
  }

  /** The remainder modulo 2P, split into the low bit and the remainder of y/2 modulo P. */
  lemma ModDouble(y: nat, p: nat)
    requires p >= 1
    ensures y % (2 * p) == 2 * ((y / 2) % p) + y % 2
  {
    var h, b := y / 2, y % 2;
    var t, r := h / p, h % p;
    assert y == (2 * p) * t + (2 * r + b) by {
      assert h == p * t + r;
      assert y == 2 * h + b;
    }
    DivModUnique(y, 2 * p, t, 2 * r + b);
  }

  /** AND with 2^n - 1 keeps a value below 2^n. */
  lemma {:induction false} BitAndAllOnes(y: nat, n: nat)
    requires y < Pow2(n)
    ensures BitAnd(y, Pow2(n) - 1) == y
    decreases n
  {
    if n > 0 && y > 0 {
      var m := Pow2(n) - 1;
      assert m / 2 == Pow2(n - 1) - 1 && m % 2 == 1;
      BitAndAllOnes(y / 2, n - 1);
    }
  }

  /** AND with the mask 2^n - 2^k clears the k low bits of a value below 2^n. */
  lemma {:induction false} BitAndClearsLow(y: nat, n: nat, k: nat, mask: nat)
    requires k <= n && y < Pow2(n) && mask + Pow2(k) == Pow2(n)
    ensures BitAnd(y, mask) == y - y % Pow2(k)
    decreases k
  {
    if k == 0 {
      assert mask == Pow2(n) - 1;
      BitAndAllOnes(y, n);
      assert y % Pow2(k) == 0;
    } else if y == 0 {
      assert BitAnd(y, mask) == 0;
    } else if mask == 0 {
      DivModUnique(y, Pow2(k), 0, y);
    } else {
      var p := Pow2(k - 1);
      var h := y / 2;
      var lo := y % 2;
      assert Pow2(k) == 2 * p;
      assert mask / 2 + p == Pow2(n - 1) && mask % 2 == 0;
      assert BitAnd(y, mask) == 2 * BitAnd(h, mask / 2);
      BitAndClearsLow(h, n - 1, k - 1, mask / 2);
      ModDouble(y, p);
      var rem := y % (2 * p);
      assert rem == 2 * (h % p) + lo;
      assert y == 2 * h + lo;
      assert BitAnd(y, mask) == y - rem;
    }
  }

  // ---------------------------------------------------------------------
  // ALIGNUP_POW2 and its reference definition
  // ---------------------------------------------------------------------

  /**
   * Rounding up to a multiple of m. This is the reference meaning of
   * aligning, and also the behaviour assumed for the `AlignSize` helper
   * that Core_Arena.cpp calls but that is not part of this model.
   */
  function RoundUp(x: nat, m: nat): (r: nat)
    requires m > 0
    ensures r % m == 0
    ensures x <= r < x + m
  {
    var q := (x + m - 1) / m;
    assert q * m == (x + m - 1) - (x + m - 1) % m;
    DivModUnique(q * m, m, q, 0);
    q * m
  }

  lemma RoundUpOfMultiple(x: nat, m: nat)
    requires m > 0 && x % m == 0
    ensures RoundUp(x, m) == x
  {
    var t := x / m;
    assert x == m * t;
    DivModUnique(x + m - 1, m, t, m - 1);
  }

  lemma RoundUpMonotone(x: nat, y: nat, m: nat)
    requires m > 0 && x <= y
    ensures RoundUp(x, m) <= RoundUp(y, m)
  {
    var qx, qy := (x + m - 1) / m, (y + m - 1) / m;
    assert m * qx <= x + m - 1 && y + m - 1 < m * qy + m;
    MulMonotone(m, qy + 1, qx);
    assert m * (qy + 1) == m * qy + m;
    MulMonotone(m, qx, qy);
  }

  /** Rounding up is adding m - 1 and dropping the remainder. */
  lemma RoundUpClearsRemainder(x: nat, m: nat)
    requires m > 0
    ensures RoundUp(x, m) == (x + m - 1) - (x + m - 1) % m
  {
  }

  /**
   * ALIGNUP_POW2(x, a) = (x + (a - 1)) & ~(a - 1) on uint64 operands:
   * `a - 1` and the addition wrap modulo 2^64 and `~` flips 64 bits.
   */
  function AlignUpPow2(x: nat, a: nat): nat
    requires x <= MaxUint64 && a <= MaxUint64
  {
    var mask := (a + MaxUint64) % Two64;
    BitAnd((x + mask) % Two64, MaxUint64 - mask)
  }

  /** The uint64 arithmetic inside ALIGNUP_POW2 does not wrap for 1 <= a and no overflow. */
  lemma AlignUpPow2NoWrap(x: nat, a: nat)
    requires 1 <= a <= MaxUint64 && x + a - 1 <= MaxUint64
    ensures (a + MaxUint64) % Two64 == a - 1
    ensures (x + (a - 1)) % Two64 == x + a - 1
  {
    DivModUnique(a + MaxUint64, Two64, 1, a - 1);
    DivModUnique(x + a - 1, Two64, 0, x + a - 1);
  }

  /** Without wrap-around the macro is a plain mask of `x + a - 1`. */
  lemma AlignUpPow2Unwrapped(x: nat, a: nat)
    requires 1 <= a <= MaxUint64 && x + a - 1 <= MaxUint64
    ensures AlignUpPow2(x, a) == BitAnd(x + a - 1, MaxUint64 - (a - 1))
  {
    AlignUpPow2NoWrap(x, a);
  }

  /** `~(a - 1)` on 64 bits is 2^64 - a, for a power of two a below 2^64 = Pow2(64). */
  lemma Pow2Below64(a: nat)
    requires IsPow2(a) && a <= MaxUint64
    ensures Log2(a) <= 64
    ensures (MaxUint64 - (a - 1)) + Pow2(Log2(a)) == Pow2(64)
  {
    var k := Log2(a);
    Pow2SixtyFour();
    if k > 64 {
      Pow2Monotone(64, k);
    }
  }

  /** For a power of two and no overflow, the bitwise macro rounds up to a multiple. */
  lemma AlignUpPow2IsRoundUp(x: nat, a: nat)
    requires IsPow2(a) && a <= MaxUint64 && x + a - 1 <= MaxUint64
    ensures AlignUpPow2(x, a) == RoundUp(x, a)
  {
    var y := x + a - 1;
    assert AlignUpPow2(x, a) == BitAnd(y, MaxUint64 - (a - 1)) by {
      AlignUpPow2Unwrapped(x, a);
    }
    assert RoundUp(x, a) == y - y % a by {
      RoundUpClearsRemainder(x, a);
    }
    MaskRoundsDown(y, a);
  }

  /** `y & ~(a - 1)` on 64 bits rounds `y` down to a multiple of the power of two `a`. */
  lemma MaskRoundsDown(y: nat, a: nat)
    requires IsPow2(a) && a <= MaxUint64 && y <= MaxUint64
    ensures BitAnd(y, MaxUint64 - (a - 1)) == y - y % a
  {
    Pow2Below64(a);
    Pow2SixtyFour();
    BitAndClearsLow(y, 64, Log2(a), MaxUint64 - (a - 1));
  }

  /** The properties ALIGNUP_POW2 is used for: the least multiple of `a` not below `x`. */
  lemma AlignUpPow2Properties(x: nat, a: nat)
    requires IsPow2(a) && a <= MaxUint64 && x + a - 1 <= MaxUint64
    ensures x <= AlignUpPow2(x, a) < x + a
    ensures AlignUpPow2(x, a) % a == 0
    ensures x % a == 0 ==> AlignUpPow2(x, a) == x
  {
    AlignUpPow2IsRoundUp(x, a);
    if x % a == 0 {
      RoundUpOfMultiple(x, a);
    }
  }

  /** The same properties, for callers that only know them conditionally. */
  lemma AlignUpPow2PropertiesWhen(x: nat, a: nat)
    requires x <= MaxUint64 && a <= MaxUint64
    ensures IsPow2(a) && x + a - 1 <= MaxUint64 ==>
              && x <= AlignUpPow2(x, a) < x + a
              && AlignUpPow2(x, a) % a == 0
  {
    if IsPow2(a) && x + a - 1 <= MaxUint64 {
      AlignUpPow2Properties(x, a);
    }
  }

  /** Alignment 1, which the arena vector policy uses, leaves the position unchanged. */
  lemma AlignUpPow2One(x: nat)
    requires x <= MaxUint64
    ensures AlignUpPow2(x, 1) == x
  {
    AlignUpPow2Properties(x, 1);
  }

  /** A power of two that is at least 8 is a multiple of 8. */
  lemma Pow2AtLeast8IsMultipleOf8(a: nat)
    requires IsPow2(a) && a >= 8
    ensures a % 8 == 0
  {
    var k := Log2(a);
    Pow2Small();
    if k < 3 {
      Pow2Monotone(k, 2);
    }
    Pow2Add(k - 3, 3);
    assert a == 8 * Pow2(k - 3);
  }

  lemma SmallPowersOfTwo()
    ensures IsPow2(1) && IsPow2(2) && IsPow2(4) && IsPow2(8)
  {
    assert IsPow2(2);
    assert IsPow2(4);
  }

  // ---------------------------------------------------------------------
  // Size macros
  // ---------------------------------------------------------------------

  /** `n << s` on unbounded integers: `s` doublings. */
  function ShiftLeft(n: nat, s: nat): nat
  {
    if s == 0 then n else 2 * ShiftLeft(n, s - 1)
  }

  lemma {:induction false} ShiftLeftIsMultiply(n: nat, s: nat)
    ensures ShiftLeft(n, s) == n * Pow2(s)
  {
    if s > 0 {
      ShiftLeftIsMultiply(n, s - 1);
    }
  }

  /**
   * KILOBYTES(n) = n << 10, shifted in the argument's own type: for an `int`
   * argument a result past INT_MAX is undefined behaviour, hence the precondition.
   */
  function Kilobytes(n: nat): (r: nat)
    requires n * 1024 <= MaxInt32
    ensures r == n * 1024
  {
    ShiftLeftIsMultiply(n, 10);
    Pow2Ten();
    ShiftLeft(n, 10)
  }

  /** MEGABYTES(n) = n << 20, on an `int` argument as KILOBYTES. */
  function Megabytes(n: nat): (r: nat)
    requires n * 1024 * 1024 <= MaxInt32
    ensures r == n * 1024 * 1024
  {
    ShiftLeftIsMultiply(n, 20);
    Pow2Twenty();
    ShiftLeft(n, 20)
  }

  /** GIGABYTES(n) = (uint64)n << 30, truncated to 64 bits. */
  function Gigabytes(n: nat): (r: nat)
    ensures n * 1024 * 1024 * 1024 <= MaxUint64 ==> r == n * 1024 * 1024 * 1024
    ensures r <= MaxUint64
  {
    ShiftLeftIsMultiply(n, 30);
    Pow2Thirty();
    ShiftLeft(n, 30) % Two64
  }
}

=== FILE: pool.dfy ===
/**
 * ElementPool of Core_Vector.h: stable handles over an arena vector. A
 * destroyed slot is overlaid with a dead marker and the index of the next
 * free slot, so the free slots form an intrusive LIFO list whose head is
 * the pool's next-free handle.
 */
module ElementPool {
  import opened Globals
  import opened Wrappers
  import opened CoreVector

  /** INVALID: the empty free list, and the handle of a failed Create. */
  const Invalid: nat := MaxUint32

  /** A slot holds a live element or the DeadEntry overlay naming the next free slot. */
  datatype Slot<T> = Live(value: T) | Dead(next: nat)

  datatype Pool<T> = Pool(vec: Vector<Slot<T>>, freeHead: nat, count: nat)

  /** The slot that follows position k of a free chain, INVALID after the last. */
  function NextOf(chain: seq<nat>, k: nat): nat
    requires k < |chain|
  {
    if k + 1 < |chain| then chain[k + 1] else Invalid
  }

  /** Every member of `chain` is a dead slot in range linking to the next member. */
  predicate ChainLinks<T>(slots: seq<Slot<T>>, chain: seq<nat>)
  {
    forall k :: 0 <= k < |chain| ==> chain[k] < |slots| && slots[chain[k]] == Dead(NextOf(chain, k))
  }

  /** No slot appears twice on `chain`. */
  predicate ChainDistinct(chain: seq<nat>)
  {
    forall i, j :: 0 <= i < j < |chain| ==> chain[i] != chain[j]
  }

  /** Every dead slot is on `chain`. */
  predicate ChainCovers<T>(slots: seq<Slot<T>>, chain: seq<nat>)
  {
    forall i :: 0 <= i < |slots| && slots[i].Dead? ==> i in chain
  }

  /**
   * `chain` is the free list starting at `head`: every member is a dead
   * slot linking to the next member, no slot appears twice, and every dead
   * slot is on it.
   */
  predicate FreeChain<T>(slots: seq<Slot<T>>, head: nat, chain: seq<nat>)
  {
    && (if |chain| == 0 then head == Invalid else head == chain[0])
    && ChainLinks(slots, chain)
    && ChainDistinct(chain)
    && ChainCovers(slots, chain)
  }

  /** With at most max_uint32 slots a non-empty free list starts at a dead slot in range, never at INVALID. */
  lemma ChainHead<T>(slots: seq<Slot<T>>, head: nat, chain: seq<nat>)
    requires FreeChain(slots, head, chain) && |slots| <= MaxUint32
    ensures |chain| > 0 <==> head != Invalid
    ensures |chain| > 0 ==> head < |slots| && slots[head] == Dead(NextOf(chain, 0))
  {
    if |chain| > 0 {
      assert slots[chain[0]] == Dead(NextOf(chain, 0));
    }
  }

  /** The number of live slots. */
  function CountLive<T>(slots: seq<Slot<T>>): (r: nat)
    ensures r <= |slots|
  {
    if |slots| == 0 then 0
    else CountLive(slots[..|slots| - 1]) + (if slots[|slots| - 1].Live? then 1 else 0)
  }

  /**
   * The pool's invariant: its vector's, a well-formed free list from the
   * head, and m_uiCount equal to the number of live slots.
   */
  ghost predicate PoolInv<T>(p: Pool<T>)
  {
    && Inv(p.vec)
    && (exists chain :: FreeChain(p.vec.elems, p.freeHead, chain))
    && p.count == CountLive(p.vec.elems)
  }

  /** What Create asserts before reusing a slot: the head is INVALID or a dead slot in range. */
  predicate FreeHeadOk<T>(p: Pool<T>)
  {
    p.freeHead == Invalid || (p.freeHead < |p.vec.elems| && p.vec.elems[p.freeHead].Dead?)
  }

  /** ElementPool(): an empty vector, an empty free list, no live elements. */
  function NewPool<T>(vec: Vector<Slot<T>>): (r: Pool<T>)
    requires Inv(vec) && vec.elems == []
    ensures PoolInv(r) && r.count == 0 && r.freeHead == Invalid
  {
    assert FreeChain(vec.elems, Invalid, []);
    Pool(vec, Invalid, 0)
  }

  /**
   * Create: pop the head of the free list and default-construct there, or
   * push a new default element; INVALID when the vector is full too.
   */
  function Create<T>(p: Pool<T>, init: T): (r: (Pool<T>, nat))
    requires Inv(p.vec) && FreeHeadOk(p)
    ensures Inv(r.0.vec) && r.0.vec.policy.capacity == p.vec.policy.capacity
    ensures r.1 != Invalid ==> r.1 < |r.0.vec.elems| && r.0.vec.elems[r.1] == Live(init) && r.0.count == WrapU32(p.count + 1)
    ensures p.freeHead != Invalid ==>
              && r.1 == p.freeHead
              && r.0.vec.elems == p.vec.elems[p.freeHead := Live(init)]
              && r.0.freeHead == p.vec.elems[p.freeHead].next
    ensures p.freeHead == Invalid ==>
              && r.0.freeHead == Invalid
              && (r.1 != Invalid <==> |p.vec.elems| < p.vec.policy.capacity)
              && (r.1 != Invalid ==> r.1 == |p.vec.elems| && r.0.vec.elems == p.vec.elems + [Live(init)])
              && (r.1 == Invalid ==> r.0.vec.elems == p.vec.elems && r.0.count == p.count)
  {
    if p.freeHead != Invalid then
      var h := p.freeHead;
      var next := p.vec.elems[h].next;
      (Pool(p.vec.(elems := p.vec.elems[h := Live(init)]), next, WrapU32(p.count + 1)), h)
    else
      var pushed := PushNew(p.vec, Live(init));
      var w := pushed.0;
      if !pushed.1 then (p.(vec := w), Invalid)
      else (Pool(w, p.freeHead, WrapU32(p.count + 1)), |w.elems| - 1)
  }

  /**
   * Destroy: refuse an out-of-range or already dead handle; otherwise mark
   * the slot dead, link it in front of the free list and decrement the count.
   */
  function Destroy<T>(p: Pool<T>, h: nat): (r: (Pool<T>, bool))
    ensures r.1 <==> h < |p.vec.elems| && p.vec.elems[h].Live?
    ensures !r.1 ==> r.0 == p
    ensures r.1 ==>
              && r.0.vec == p.vec.(elems := p.vec.elems[h := Dead(p.freeHead)])
              && r.0.freeHead == h
              && r.0.count == WrapU32(p.count - 1)
  {
    if h >= |p.vec.elems| then (p, false)
    else if p.vec.elems[h].Dead? then (p, false)
    else
      var slots := p.vec.elems[h := Dead(p.freeHead)];
      (Pool(p.vec.(elems := slots), h, WrapU32(p.count - 1)), true)
  }

  /** TryGet: the element behind a handle, or nothing for a bad or dead handle. */
  function TryGet<T>(p: Pool<T>, h: nat): (r: Option<T>)
    ensures r.Some? <==> h < |p.vec.elems| && p.vec.elems[h].Live?
    ensures r.Some? ==> p.vec.elems[h] == Live(r.value)
  {
    if h < |p.vec.elems| && p.vec.elems[h].Live? then Some(p.vec.elems[h].value) else None
  }

  /**
   * Get: nothing for an out-of-range handle; a dead handle in range is an
   * assertion failure in the source, hence excluded.
   */
  function Get<T>(p: Pool<T>, h: nat): (r: Option<T>)
    requires h < |p.vec.elems| ==> p.vec.elems[h].Live?
    ensures r.None? <==> h >= |p.vec.elems|
    ensures r.Some? ==> p.vec.elems[h] == Live(r.value)
  {
    if h < |p.vec.elems| then Some(p.vec.elems[h].value) else None
  }

  /** count(). */
  function Count<T>(p: Pool<T>): (r: nat)
    requires PoolInv(p)
    ensures r == CountLive(p.vec.elems) && r <= |p.vec.elems|
  {
    p.count
  }

  /** ForEachElement: visit the live slots in index order, skipping dead ones. */
  method ForEachElement<T>(p: Pool<T>) returns (visited: seq<(nat, T)>)
    ensures |visited| == CountLive(p.vec.elems)
    ensures forall k :: 0 <= k < |visited| ==>
              visited[k].0 < |p.vec.elems| && p.vec.elems[visited[k].0] == Live(visited[k].1)
    ensures forall k, l :: 0 <= k < l < |visited| ==> visited[k].0 < visited[l].0
    ensures forall i :: 0 <= i < |p.vec.elems| && p.vec.elems[i].Live? ==>
              (i, p.vec.elems[i].value) in visited
  {
    var slots := p.vec.elems;
    visited := [];
    var i := 0;
    while i < |slots|
      invariant 0 <= i <= |slots|
      invariant |visited| == CountLive(slots[..i])
      invariant forall k :: 0 <= k < |visited| ==> visited[k].0 < i && slots[visited[k].0] == Live(visited[k].1)
      invariant forall k, l :: 0 <= k < l < |visited| ==> visited[k].0 < visited[l].0
      invariant forall j :: 0 <= j < i && slots[j].Live? ==> (j, slots[j].value) in visited
    {
      assert slots[..i + 1][..i] == slots[..i];
      if slots[i].Live? {
        visited := visited + [(i, slots[i].value)];
      }
      i := i + 1;
    }
    assert slots[..i] == slots;
  }

  // ---------------------------------------------------------------------
  // Counting lemmas
  // ---------------------------------------------------------------------

  lemma {:induction false} CountLiveUpdate<T>(s: seq<Slot<T>>, i: nat, x: Slot<T>)
    requires i < |s|
    ensures CountLive(s[i := x]) + (if s[i].Live? then 1 else 0) == CountLive(s) + (if x.Live? then 1 else 0)
    decreases |s|
  {
    var t := s[i := x];
    if i < |s| - 1 {
      assert t[..|t| - 1] == s[..|s| - 1][i := x];
      CountLiveUpdate(s[..|s| - 1], i, x);
    } else {
      assert t[..|t| - 1] == s[..|s| - 1];
    }
  }

  lemma CountLiveAppend<T>(s: seq<Slot<T>>, x: Slot<T>)
    ensures CountLive(s + [x]) == CountLive(s) + (if x.Live? then 1 else 0)
  {
    assert (s + [x])[..|s|] == s;
  }

  // ---------------------------------------------------------------------
  // Invariant preservation
  // ---------------------------------------------------------------------

  /** The invariant gives Create's precondition. */
  lemma InvImpliesFreeHeadOk<T>(p: Pool<T>)
    requires PoolInv(p)
    ensures FreeHeadOk(p)
  {
    var chain :| FreeChain(p.vec.elems, p.freeHead, chain);
    ChainHead(p.vec.elems, p.freeHead, chain);
  }

  /** With the invariant, INVALID as free head means no slot is dead. */
  lemma EmptyFreeListNoDead<T>(p: Pool<T>, chain: seq<nat>)
    requires Inv(p.vec) && FreeChain(p.vec.elems, p.freeHead, chain) && p.freeHead == Invalid
    ensures chain == []
    ensures forall i :: 0 <= i < |p.vec.elems| ==> p.vec.elems[i].Live?
  {
    ChainHead(p.vec.elems, p.freeHead, chain);
  }

  /** Taking the head off the free list and making its slot live leaves a free list from the next slot. */
  lemma ReuseKeepsChain<T>(slots: seq<Slot<T>>, chain: seq<nat>, x: T)
    requires |chain| > 0 && FreeChain(slots, chain[0], chain)
    ensures chain[0] < |slots| && slots[chain[0]] == Dead(NextOf(chain, 0))
    ensures FreeChain(slots[chain[0] := Live(x)], NextOf(chain, 0), chain[1..])
  {
    var t := slots[chain[0] := Live(x)];
    var rest := chain[1..];
    assert slots[chain[0]] == Dead(NextOf(chain, 0));
    assert ChainLinks(t, rest) by {
      forall k | 0 <= k < |rest|
        ensures rest[k] < |t| && t[rest[k]] == Dead(NextOf(rest, k))
      {
        assert rest[k] == chain[k + 1] != chain[0];
        assert slots[chain[k + 1]] == Dead(NextOf(chain, k + 1));
      }
    }
    assert ChainDistinct(rest);
    assert ChainCovers(t, rest) by {
      forall i | 0 <= i < |t| && t[i].Dead?
        ensures i in rest
      {
        assert i in chain;
        var k :| 0 <= k < |chain| && chain[k] == i;
        assert rest[k - 1] == i;
      }
    }
  }

  /** Marking a live slot dead and linking it in front keeps a free list from that slot. */
  lemma DestroyKeepsChain<T>(slots: seq<Slot<T>>, head: nat, chain: seq<nat>, h: nat)
    requires FreeChain(slots, head, chain) && h < |slots| && slots[h].Live?
    ensures FreeChain(slots[h := Dead(head)], h, [h] + chain)
  {
    var t := slots[h := Dead(head)];
    var chain' := [h] + chain;
    assert h !in chain by {
      forall k | 0 <= k < |chain|
        ensures chain[k] != h
      {
        assert slots[chain[k]] == Dead(NextOf(chain, k));
      }
    }
    assert ChainLinks(t, chain') by {
      forall k | 0 <= k < |chain'|
        ensures chain'[k] < |t| && t[chain'[k]] == Dead(NextOf(chain', k))
      {
        if k > 0 {
          assert chain'[k] == chain[k - 1];
          assert slots[chain[k - 1]] == Dead(NextOf(chain, k - 1));
        }
      }
    }
    assert ChainDistinct(chain') by {
      forall i, j | 0 <= i < j < |chain'|
        ensures chain'[i] != chain'[j]
      {
        assert chain'[j] == chain[j - 1];
        if i > 0 {
          assert chain'[i] == chain[i - 1];
        }
      }
    }
    assert ChainCovers(t, chain') by {
      forall i | 0 <= i < |t| && t[i].Dead?
        ensures i in chain'
      {
        if i != h {
          assert i in chain;
        }
      }
    }
  }

  /** Appending a live slot to a pool without dead slots keeps the empty free list. */
  lemma GrowKeepsChain<T>(slots: seq<Slot<T>>, x: T)
    requires forall i :: 0 <= i < |slots| ==> slots[i].Live?
    ensures FreeChain(slots + [Live(x)], Invalid, [])
  {
    var t := slots + [Live(x)];
    assert ChainCovers(t, []) by {
      forall i | 0 <= i < |t|
        ensures t[i].Live?
      {
        if i < |slots| {
          assert t[i] == slots[i];
        }
      }
    }
  }

  /** Create on a non-empty free list: the chain loses its head and one more slot is live. */
  lemma CreateReusePreservesInv<T>(p: Pool<T>, init: T, chain: seq<nat>)
    requires Inv(p.vec) && FreeChain(p.vec.elems, p.freeHead, chain) && p.count == CountLive(p.vec.elems)
    requires p.freeHead != Invalid
    ensures FreeHeadOk(p)
    ensures PoolInv(Create(p, init).0)
  {
    var slots := p.vec.elems;
    ChainHead(slots, p.freeHead, chain);
    var r := Create(p, init);
    var q := r.0;
    assert r.1 == p.freeHead != Invalid;
    assert q.count == WrapU32(p.count + 1);
    assert q.vec.elems == slots[p.freeHead := Live(init)] && Inv(q.vec);
    ReuseKeepsChain(slots, chain, init);
    assert FreeChain(q.vec.elems, q.freeHead, chain[1..]);
    CountLiveUpdate(slots, p.freeHead, Live(init));
    var c := CountLive(q.vec.elems);
    assert c == p.count + 1 <= |slots| <= MaxUint32;
    assert q.count == p.count + 1;
  }

  /** Create on an empty free list: the pushed slot is live, or nothing changes. */
  lemma CreateGrowPreservesInv<T>(p: Pool<T>, init: T, chain: seq<nat>)
    requires Inv(p.vec) && FreeChain(p.vec.elems, p.freeHead, chain) && p.count == CountLive(p.vec.elems)
    requires p.freeHead == Invalid
    ensures PoolInv(Create(p, init).0)
  {
    var slots := p.vec.elems;
    var r := Create(p, init);
    var q := r.0;
    EmptyFreeListNoDead(p, chain);
    if r.1 != Invalid {
      GrowKeepsChain(slots, init);
      assert FreeChain(q.vec.elems, q.freeHead, []);
      CountLiveAppend(slots, Live(init));
      assert CountLive(q.vec.elems) == p.count + 1;
    } else {
      assert FreeChain(q.vec.elems, q.freeHead, chain);
    }
  }

  lemma CreatePreservesInv<T>(p: Pool<T>, init: T)
    requires PoolInv(p)
    ensures FreeHeadOk(p)
    ensures PoolInv(Create(p, init).0)
  {
    InvImpliesFreeHeadOk(p);
    var chain :| FreeChain(p.vec.elems, p.freeHead, chain);
    if p.freeHead != Invalid {
      CreateReusePreservesInv(p, init, chain);
    } else {
      CreateGrowPreservesInv(p, init, chain);
    }
  }

  lemma {:induction false} DestroyPreservesInv<T>(p: Pool<T>, h: nat)
    requires PoolInv(p)
    ensures PoolInv(Destroy(p, h).0)
  {
    var destroyed := Destroy(p, h);
    var q := destroyed.0;
    if destroyed.1 {
      var chain :| FreeChain(p.vec.elems, p.freeHead, chain);
      DestroyKeepsChain(p.vec.elems, p.freeHead, chain, h);
      assert FreeChain(q.vec.elems, q.freeHead, [h] + chain);
      CountLiveUpdate(p.vec.elems, h, Dead(p.freeHead));
    }
  }

  // ---------------------------------------------------------------------
  // Handle properties
  // ---------------------------------------------------------------------

  /** The free list is LIFO: the handle destroyed last is the one Create hands out next. */
  lemma DestroyThenCreateReuses<T>(p: Pool<T>, h: nat, init: T)
    requires PoolInv(p) && Destroy(p, h).1
    ensures Inv(Destroy(p, h).0.vec) && FreeHeadOk(Destroy(p, h).0)
    ensures Create(Destroy(p, h).0, init).1 == h
    ensures Create(Destroy(p, h).0, init).0.vec.elems == p.vec.elems[h := Live(init)]
    ensures Create(Destroy(p, h).0, init).0.freeHead == p.freeHead
  {
    DestroyPreservesInv(p, h);
    InvImpliesFreeHeadOk(Destroy(p, h).0);
  }

  /** A destroyed handle is dead: a second Destroy is refused and TryGet finds nothing. */
  lemma DoubleDestroyRefused<T>(p: Pool<T>, h: nat)
    requires Destroy(p, h).1
    ensures !Destroy(Destroy(p, h).0, h).1
    ensures TryGet(Destroy(p, h).0, h).None?
  {
  }

  /** A handle Create returns is live and holds the new default element. */
  lemma CreatedHandleIsLive<T>(p: Pool<T>, init: T)
    requires PoolInv(p)
    ensures FreeHeadOk(p)
    ensures Create(p, init).1 != Invalid ==> TryGet(Create(p, init).0, Create(p, init).1) == Some(init)
    ensures Create(p, init).1 != Invalid ==> Create(p, init).1 >= |p.vec.elems| || p.vec.elems[Create(p, init).1].Dead?
  {
    InvImpliesFreeHeadOk(p);
  }

  /** Create and Destroy leave every other handle's slot as it was. */
  lemma OtherHandlesStable<T>(p: Pool<T>, h: nat, g: nat, init: T)
    requires PoolInv(p) && g != h && g < |p.vec.elems|
    ensures FreeHeadOk(p)
    ensures TryGet(Destroy(p, h).0, g) == TryGet(p, g)
    ensures Create(p, init).1 != g ==> TryGet(Create(p, init).0, g) == TryGet(p, g)
  {
    InvImpliesFreeHeadOk(p);
  }

  /** A pool whose vector is full and has no free slot refuses Create; a Destroy makes room again. */
  lemma ExhaustionAndRecovery<T>(p: Pool<T>, h: nat, init: T)
    requires PoolInv(p) && p.freeHead == Invalid && |p.vec.elems| == p.vec.policy.capacity
    requires h < |p.vec.elems|
    ensures FreeHeadOk(p)
    ensures Create(p, init).1 == Invalid && Create(p, init).0.count == p.count
    ensures Destroy(p, h).1 && FreeHeadOk(Destroy(p, h).0)
    ensures Create(Destroy(p, h).0, init).1 == h
  {
    InvImpliesFreeHeadOk(p);
    var chain :| FreeChain(p.vec.elems, p.freeHead, chain);
    EmptyFreeListNoDead(p, chain);
    DestroyThenCreateReuses(p, h, init);
  }

  /** The invariant bounds the count by the slots, so the uint32 count never wraps. */
  lemma CountBounded<T>(p: Pool<T>)
    requires PoolInv(p)
    ensures p.count <= |p.vec.elems| <= MaxUint32
  {
  }
}

=== FILE: scenario.dfy ===
/**
 * The BaseApp walk-through (Apps/BaseApp/src/main.cpp): a 128-char string
 * buffer, an arena named "Thunderdome!!", a ten-element static vector pushed
 * from it, and a map of uint32 pairs with one hashed key. The page size is
 * the 4 KiB of the target platform; the hash of "Key1" is a parameter.
 */
module Scenario {
  import opened Globals
  import opened Wrappers
  import opened CoreArena
  import opened CoreVector
  import opened CoreVectorMap
  import opened ArenaTyped
  import opened CoreString

  const PageSize: nat := 4096

  /** A string literal as the compiler lays it out: its characters and a NUL. */
  function Lit(s: string): (r: seq<char>)
    ensures |r| == |s| + 1 && r[..|s|] == s && r[|s|] == '\0'
  {
    assert (s + ['\0'])[..|s|] == s;
    s + ['\0']
  }

  /**
   * buffer = "MyBuffer"; Terminate; += " is amazing!"; Terminate; c_str.
   * The storage and the length start out uninitialised: any 128 chars and
   * any length in range lead to the same string.
   */
  function MainBuffer(storage: seq<char>, len: nat): (r: Buffer)
    requires |storage| == 128 && len <= 128
    ensures BufferOk(r) && r.len == 20 && Terminated(r)
    ensures CStr(r) == "MyBuffer is amazing!"
  {
    var first := Lit("MyBuffer");
    var second := Lit(" is amazing!");
    var b1 := AssignLiteral(Buffer(storage, len), first);
    var b2 := AppendLiteral(Terminate(b1), second);
    assert Content(b2) == "MyBuffer is amazing!" by {
      assert first[..|first| - 1] == "MyBuffer";
      assert second[..|second| - 1] == " is amazing!";
    }
    Terminate(b2)
  }

  /** NEW_ARENA( .tokName = "Thunderdome!!" ): the default sizes, rounded to whole pages. */
  function MainArena(reserveOk: bool): (r: Option<Arena>)
    ensures r.Some? <==> reserveOk
    ensures r.Some? ==>
              && Valid(r.value)
              && r.value.params.name == "Thunderdome!!"
              && r.value.pos == ArenaHeaderSize
              && r.value.committed == 64 * 1024
              && r.value.reserved == 64 * 1024 * 1024
  {
    DefaultSizes();
    SmallPowersOfTwo();
    PageSizeFacts();
    ArenaAlloc(NewArenaParams("Thunderdome!!"), PageSize, reserveOk)
  }

  /** 4 KiB is a power of two dividing both default sizes. */
  lemma PageSizeFacts()
    ensures IsPow2(PageSize)
    ensures RoundUp(64 * 1024, PageSize) == 64 * 1024
    ensures RoundUp(64 * 1024 * 1024, PageSize) == 64 * 1024 * 1024
  {
    assert IsPow2(16);
    assert IsPow2(256);
    RoundUpOfMultiple(64 * 1024, PageSize);
    RoundUpOfMultiple(64 * 1024 * 1024, PageSize);
  }

  /** uint32 as an element type: 4 bytes, aligned to 4. */
  const Uint32: ElemType<nat> := ElemType(4, 4)

  /**
   * ArenaPushVector<uint32>( pArena, 10 ) on the fresh arena, then
   * push_back of 69, 55, 420 and 67: the vector's storage is the 40 bytes
   * right after the header, at alignment 8, zero when the vector is built.
   * The elements are kept in the vector, not written back into the region's
   * bytes, so the returned region is the one ArenaPushVector left.
   */
  function MainVector(g: Region, pages: Pages): (r: PushedVector<nat>)
    requires RegionOk(g) && g.arena.pos == ArenaHeaderSize
    requires g.arena.committed == 64 * 1024 && g.arena.reserved == 64 * 1024 * 1024
    ensures r.vec.elems == [69, 55, 420, 67]
    ensures r.vec.policy == StaticPolicy(ArenaHeaderSize, 10)
    ensures r.region.arena.pos == ArenaHeaderSize + 40 && r.region.arena.committed == g.arena.committed
    ensures var built := PushVector(g, Uint32, 10, pages);
            && BlockZeroed(built.region.mem, ArenaHeaderSize, 40)
            && r.region == built.region
  {
    SmallPowersOfTwo();
    AlignUpPow2Properties(ArenaHeaderSize, 8);
    var pushed := PushVector(g, Uint32, 10, pages);
    var v := CoreVector.PushAll(pushed.vec, [69, 55, 420, 67], 0);
    PushedVector(pushed.region, v)
  }

  /**
   * The default-constructed Uint32Map (a vector on its own arena) after
   * add( 0, 69 ), add( 1, 420 ), add( 2, 911 ) and add( hash, 1234 ): the
   * hashed key is stored last unless it collides with 0, 1 or 2, in which
   * case the earlier pair is kept.
   */
  function MainMap(reserveOk: bool, hash: nat): (r: Option<VectorMap<nat, nat>>)
    requires hash <= MaxUint32
    ensures r.Some? <==> reserveOk
    ensures r.Some? ==> MapInv(r.value)
    ensures r.Some? && hash !in {0, 1, 2} ==>
              r.value.vec.elems == [Pair(0, 69), Pair(1, 420), Pair(2, 911), Pair(hash, 1234)]
    ensures r.Some? && hash in {0, 1, 2} ==>
              r.value.vec.elems == [Pair(0, 69), Pair(1, 420), Pair(2, 911)]
  {
    SmallPowersOfTwo();
    PageSizeFacts();
    DefaultSizes();
    match DefaultArenaVector<Pair<nat, nat>>(8, PageSize, reserveOk)
    case None => None
    case Some(v) =>
      var m0 := VectorMap(v);
      var m3 := AddAll(m0, [Pair(0, 69), Pair(1, 420), Pair(2, 911)], Pair(0, 0));
      var m4 := Add(m3, hash, 1234, Pair(0, 0), None).map_;
      FirstThreeAdds(m0);
      HashedAdd(m3, hash);
      Some(m4)
  }

  /** The three fixed keys of the walk-through are distinct. */
  lemma FixedKeys()
    ensures DistinctKeys([Pair(0, 69), Pair(1, 420), Pair(2, 911)])
    ensures Keys([Pair(0, 69), Pair(1, 420), Pair(2, 911)]) == [0, 1, 2]
  {
  }

  /** The three fixed keys go in, in order. */
  lemma FirstThreeAdds(m0: VectorMap<nat, nat>)
    requires Inv(m0.vec) && m0.vec.elems == [] && m0.vec.policy.capacity >= 4
    ensures var m3 := AddAll(m0, [Pair(0, 69), Pair(1, 420), Pair(2, 911)], Pair(0, 0));
            && MapInv(m3)
            && m3.vec.elems == [Pair(0, 69), Pair(1, 420), Pair(2, 911)]
  {
    var three := [Pair(0, 69), Pair(1, 420), Pair(2, 911)];
    assert m0.vec.elems + three == three;
    FixedKeys();
    AddAllFresh(m0, three, Pair(0, 0));
  }

  /** The hashed key goes in last unless it collides with a fixed one. */
  lemma HashedAdd(m3: VectorMap<nat, nat>, hash: nat)
    requires MapInv(m3) && m3.vec.elems == [Pair(0, 69), Pair(1, 420), Pair(2, 911)]
    requires m3.vec.policy.capacity >= 4
    ensures var m4 := Add(m3, hash, 1234, Pair(0, 0), None).map_;
            && MapInv(m4)
            && (hash !in {0, 1, 2} ==> m4.vec.elems == [Pair(0, 69), Pair(1, 420), Pair(2, 911), Pair(hash, 1234)])
            && (hash in {0, 1, 2} ==> m4.vec.elems == [Pair(0, 69), Pair(1, 420), Pair(2, 911)])
  {
    FixedKeys();
    AddPreservesInv(m3, hash, 1234, Pair(0, 0), None);
    assert hash in {0, 1, 2} <==> hash in Keys(m3.vec.elems);
  }
}

=== FILE: string_buffer.dfy ===
/**
 * String::Buffer<N> of Core_String.h: a fixed array of N chars and a length.
 * The characters past the length are whatever the storage held before, so
 * the model keeps the whole array; a C string literal `char const (&)[M]` is
 * its M chars, the terminating NUL included.
 */
module CoreString {
  import opened Globals

  /** The storage (capacity = its length, the template's eCapacity) and the length in use. */
  datatype Buffer = Buffer(data: seq<char>, len: nat)

  /** A string literal as the templates receive it: at least its terminator, and a uint32 length. */
  predicate Literal(lit: seq<char>)
  {
    1 <= |lit| <= MaxUint32
  }

  /** The length never exceeds the capacity, itself a uint32 template argument. */
  predicate BufferOk(b: Buffer)
  {
    b.len <= |b.data| <= MaxUint32
  }

  /** The characters in use. */
  function Content(b: Buffer): (r: seq<char>)
    requires b.len <= |b.data|
    ensures |r| == b.len
  {
    b.data[..b.len]
  }

  /** c_str's precondition: the character right after the content is the terminator. */
  predicate Terminated(b: Buffer)
  {
    b.len < |b.data| && b.data[b.len] == '\0'
  }

  /**
   * operator=( literal ): the length becomes MIN( M - 1, eCapacity ) and
   * that many characters of the literal are copied; the terminator is not.
   */
  function AssignLiteral(b: Buffer, lit: seq<char>): (r: Buffer)
    requires BufferOk(b) && Literal(lit)
    ensures BufferOk(r) && |r.data| == |b.data|
    ensures r.len == |lit| - 1 || r.len == |b.data|
    ensures r.len <= |lit| - 1
    ensures Content(r) == lit[..r.len]
    ensures forall i :: r.len <= i < |r.data| ==> r.data[i] == b.data[i]
  {
    var n := Min(|lit| - 1, |b.data|);
    Buffer(lit[..n] + b.data[n..], n)
  }

  /** The constructor from a literal does what the assignment does, over uninitialised storage. */
  function FromLiteral(storage: seq<char>, lit: seq<char>): (r: Buffer)
    requires |storage| <= MaxUint32 && Literal(lit)
    ensures BufferOk(r) && |r.data| == |storage|
    ensures r.len == Min(|lit| - 1, |storage|)
    ensures Content(r) == lit[..r.len]
  {
    AssignLiteral(Buffer(storage, 0), lit)
  }

  /** operator=( Buffer ): the length and the first `len` characters of the right-hand side. */
  function CopyAssign(b: Buffer, rhs: Buffer): (r: Buffer)
    requires BufferOk(b) && BufferOk(rhs) && |rhs.data| == |b.data|
    ensures BufferOk(r) && |r.data| == |b.data|
    ensures Content(r) == Content(rhs)
    ensures forall i :: rhs.len <= i < |r.data| ==> r.data[i] == b.data[i]
  {
    Buffer(rhs.data[..rhs.len] + b.data[rhs.len..], rhs.len)
  }

  /**
   * append( s, n ): the caller guarantees the room (an assertion that does
   * not return); at most eCapacity characters of `s` are copied after the
   * content and the length grows by that many.
   */
  function Append(b: Buffer, s: seq<char>, n: nat): (r: Buffer)
    requires BufferOk(b) && b.len + n <= |b.data| && n <= |s|
    ensures BufferOk(r) && |r.data| == |b.data|
    ensures r.len == b.len + n
    ensures Content(r) == Content(b) + s[..n]
    ensures forall i :: r.len <= i < |r.data| ==> r.data[i] == b.data[i]
  {
    var k := Min(n, |b.data|);
    Buffer(b.data[..b.len] + s[..k] + b.data[b.len + k..], b.len + k)
  }

  /** operator+=( literal ): the literal without its terminator. */
  function AppendLiteral(b: Buffer, lit: seq<char>): (r: Buffer)
    requires BufferOk(b) && Literal(lit) && b.len + |lit| - 1 <= |b.data|
    ensures BufferOk(r) && |r.data| == |b.data|
    ensures Content(r) == Content(b) + lit[..|lit| - 1]
  {
    Append(b, lit, |lit| - 1)
  }

  /** operator+=( Buffer ): the right-hand side's content. */
  function AppendBuffer(b: Buffer, rhs: Buffer): (r: Buffer)
    requires BufferOk(b) && BufferOk(rhs) && b.len + rhs.len <= |b.data|
    ensures BufferOk(r) && |r.data| == |b.data|
    ensures Content(r) == Content(b) + Content(rhs)
  {
    Append(b, rhs.data, rhs.len)
  }

  /** Terminate: a NUL right after the content, which must leave room for it. */
  function Terminate(b: Buffer): (r: Buffer)
    requires BufferOk(b) && b.len < |b.data|
    ensures BufferOk(r) && |r.data| == |b.data| && r.len == b.len
    ensures Terminated(r)
    ensures Content(r) == Content(b)
    ensures forall i :: 0 <= i < |r.data| && i != b.len ==> r.data[i] == b.data[i]
  {
    b.(data := b.data[b.len := '\0'])
  }

  /**
   * c_str: the storage, asserted to hold a terminator right after the
   * content; the result is the storage up to that terminator. A content
   * holding a NUL of its own ends earlier when read as a C string.
   */
  function CStr(b: Buffer): (r: seq<char>)
    requires BufferOk(b) && Terminated(b)
    ensures r + ['\0'] == b.data[..b.len + 1]
  {
    assert b.data[..b.len + 1] == b.data[..b.len] + [b.data[b.len]];
    b.data[..b.len]
  }

  // ---------------------------------------------------------------------
  // Properties
  // ---------------------------------------------------------------------

  /** Whether an append leaves the buffer terminated depends only on the old character now right after the content. */
  lemma AppendTerminatedIff(b: Buffer, s: seq<char>, n: nat)
    requires BufferOk(b) && b.len + n <= |b.data| && n <= |s|
    ensures Terminated(Append(b, s, n)) <==> b.len + n < |b.data| && b.data[b.len + n] == '\0'
  {
  }

  /** A terminated buffer stops being one after appending over its terminator, when the next stored character is not NUL. */
  lemma AppendBreaksTerminator()
    ensures var b := Terminate(Buffer(['a', 'x', 'z'], 1));
            && Terminated(b)
            && !Terminated(Append(b, ['b'], 1))
  {
    var b := Terminate(Buffer(['a', 'x', 'z'], 1));
    AppendTerminatedIff(b, ['b'], 1);
  }

  /** Two appends store what one append of both pieces would: the whole buffer, not only the content, is equal. */
  lemma {:induction false} AppendTwice(b: Buffer, s: seq<char>, n: nat, t: seq<char>, m: nat)
    requires BufferOk(b) && b.len + n + m <= |b.data| && n <= |s| && m <= |t|
    ensures Append(Append(b, s, n), t, m) == Append(b, s[..n] + t[..m], n + m)
  {
    var once := Append(b, s, n);
    var twice := Append(once, t, m);
    var whole := Append(b, s[..n] + t[..m], n + m);
    assert (s[..n] + t[..m])[..n + m] == s[..n] + t[..m];
    assert |twice.data| == |whole.data|;
    forall i | 0 <= i < |whole.data|
      ensures twice.data[i] == whole.data[i]
    {
      if i < b.len + n + m {
        assert twice.data[i] == Content(twice)[i];
        assert whole.data[i] == Content(whole)[i];
      }
    }
  }

  /** Terminating twice is terminating once. */
  lemma TerminateIdempotent(b: Buffer)
    requires BufferOk(b) && b.len < |b.data|
    ensures Terminate(Terminate(b)) == Terminate(b)
  {
  }

  /** Assigning a literal that fits, then appending another that fits, holds both literals without terminators. */
  lemma AssignThenAppend(b: Buffer, first: seq<char>, second: seq<char>)
    requires BufferOk(b) && Literal(first) && Literal(second)
    requires |first| - 1 + |second| - 1 < |b.data|
    ensures var a := AssignLiteral(b, first);
            var c := AppendLiteral(Terminate(a), second);
            && c.len == |first| + |second| - 2
            && Content(c) == first[..|first| - 1] + second[..|second| - 1]
            && Terminated(Terminate(c))
  {
  }
}

=== FILE: vector.dfy ===
/**
 * The policy-based vector of Core_Vector.h. A vector is its element
 * sequence plus a storage policy: VectorPolicyStatic over a caller-owned
 * buffer of fixed capacity, or VectorPolicyArena owning an arena in which
 * every element is one ArenaPush of sizeof(T) bytes at alignment 1. The
 * algorithms of `Vector` are written once over both policies.
 */
module CoreVector {
  import opened Globals
  import opened Wrappers
  import opened CoreArena

  /**
   * StaticPolicy: the buffer's offset and capacity. ArenaPolicy: the owned
   * arena, sizeof(T) and the capacity computed from the reservation.
   */
  datatype Policy =
    | StaticPolicy(data: nat, capacity: nat)
    | ArenaPolicy(arena: Arena, elemSize: nat, capacity: nat)

  datatype Vector<T> = Vector(elems: seq<T>, policy: Policy)

  /** eInvalidIndex, the "not found" answer of `find`. */
  const InvalidIndex: nat := MaxUint32

  /**
   * size <= capacity <= max_uint32 for both policies; an arena-backed vector
   * keeps its arena valid with the cursor exactly `size` elements past the
   * header, and its capacity is the number of elements the reservation holds.
   */
  predicate Inv<T>(v: Vector<T>)
  {
    && |v.elems| <= v.policy.capacity <= MaxUint32
    && match v.policy
       case StaticPolicy(_, _) => true
       case ArenaPolicy(a, s, cap) =>
         && Valid(a)
         && s > 0
         && a.pos == a.basePos + |v.elems| * s
         && cap == (a.reserved - a.basePos) / s
         && a.reserved + s <= MaxUint64
  }

  // ---------------------------------------------------------------------
  // Construction
  // ---------------------------------------------------------------------

  /** VectorPolicyStatic( pData, uiCapacity ): an empty view of a caller's buffer. */
  function NewStatic<T>(data: nat, capacity: nat): (r: Vector<T>)
    requires capacity <= MaxUint32
    ensures Inv(r) && r.elems == [] && r.policy.capacity == capacity
  {
    Vector([], StaticPolicy(data, capacity))
  }

  /** k elements of size s fit in d bytes exactly when k <= d / s. */
  lemma FitsIffAtMostQuotient(k: nat, s: nat, d: nat)
    requires s > 0
    ensures k * s <= d <==> k <= d / s
  {
    var q := d / s;
    assert d == s * q + d % s;
    MulMonotone(s, k, q);
    MulMonotone(s, q + 1, k);
    assert s * (q + 1) == s * q + s;
  }

  /**
   * VectorPolicyArena(): allocate an arena reserving room for `desired`
   * elements past the header and committing `growth` elements at a time,
   * then take as capacity the elements that fit in the reservation, stored
   * in a uint32. The source dereferences the arena unchecked, so a refused
   * reservation has no vector here.
   */
  function NewArenaVector<T>(elemSize: nat, growth: nat, desired: nat, pageSize: nat, reserveOk: bool): (r: Option<Vector<T>>)
    requires elemSize > 0 && growth > 0
    requires IsPow2(pageSize) && pageSize <= MaxUint64
    requires desired * elemSize + ArenaHeaderSize + pageSize + elemSize <= MaxUint64
    requires growth * elemSize + pageSize <= MaxUint64
    ensures r.Some? <==> reserveOk
    ensures r.Some? ==> r.value.elems == [] && r.value.policy.ArenaPolicy?
    ensures r.Some? && growth <= desired && CapacityFits(elemSize, desired, pageSize) ==>
              Inv(r.value) && r.value.policy.capacity >= desired
    ensures r.Some? ==>
              var a := r.value.policy.arena;
              && a.params.reserveSize == desired * elemSize + ArenaHeaderSize
              && a.params.commitSize == growth * elemSize
              && a.reserved == RoundUp(desired * elemSize + ArenaHeaderSize, pageSize)
              && (RoundUp(growth * elemSize, pageSize) >= ArenaHeaderSize ==> a.committed == RoundUp(growth * elemSize, pageSize))
              && r.value.policy.elemSize == elemSize
              && r.value.policy.capacity == WrapU32((a.reserved - ArenaHeaderSize) / elemSize)
  {
    var params := VectorArenaParams(elemSize, growth, desired);
    match ArenaAlloc(params, pageSize, reserveOk)
    case None => None
    case Some(a) =>
      VectorRoom(elemSize, growth, desired, pageSize);
      Some(Vector([], ArenaPolicy(a, elemSize, WrapU32((a.reserved - a.basePos) / elemSize))))
  }

  /** The parameters of the vector's arena: `desired` elements past the header, committed `growth` elements at a time. */
  function VectorArenaParams(elemSize: nat, growth: nat, desired: nat): (r: ArenaParams)
    ensures r.reserveSize == desired * elemSize + ArenaHeaderSize
    ensures r.commitSize == growth * elemSize
  {
    ArenaParams(desired * elemSize + ArenaHeaderSize, growth * elemSize, "VectorArena")
  }

  /** The element count of the reservation, before it is stored in a uint32, does not wrap. */
  predicate CapacityFits(elemSize: nat, desired: nat, pageSize: nat)
    requires elemSize > 0 && pageSize > 0
  {
    (RoundUp(desired * elemSize + ArenaHeaderSize, pageSize) - ArenaHeaderSize) / elemSize <= MaxUint32
  }

  /** The rounded reservation of a vector arena holds `desired` elements and stays in range; a smaller commit size rounds to no more. */
  lemma VectorRoom(s: nat, growth: nat, desired: nat, pageSize: nat)
    requires s > 0 && pageSize > 0
    requires desired * s + ArenaHeaderSize + pageSize + s <= MaxUint64
    ensures var reserved := RoundUp(desired * s + ArenaHeaderSize, pageSize);
            && ArenaHeaderSize <= reserved
            && (growth <= desired ==> RoundUp(growth * s, pageSize) <= reserved)
            && reserved + s <= MaxUint64
            && (reserved - ArenaHeaderSize) / s >= desired
  {
    var reserved := RoundUp(desired * s + ArenaHeaderSize, pageSize);
    if growth <= desired {
      MulMonotone(s, growth, desired);
      RoundUpMonotone(growth * s, desired * s + ArenaHeaderSize, pageSize);
    }
    FitsIffAtMostQuotient(desired, s, reserved - ArenaHeaderSize);
  }

  lemma DefaultVectorBounds(elemSize: nat, pageSize: nat, desired: nat)
    requires 0 < elemSize <= MaxUint32 && 0 < pageSize <= 4096
    requires desired == DefaultReserveSize / elemSize
    ensures desired * elemSize + ArenaHeaderSize + pageSize + elemSize <= MaxUint64
    ensures CapacityFits(elemSize, desired, pageSize)
  {
    DefaultSizes();
    var d := DefaultReserveSize;
    FitsIffAtMostQuotient(desired, elemSize, d);
    var x := desired * elemSize + ArenaHeaderSize;
    var room := RoundUp(x, pageSize) - ArenaHeaderSize;
    assert room < d + pageSize;
    FitsIffAtMostQuotient(room / elemSize, 1, room);
    MulMonotone(room / elemSize, 1, elemSize);
    assert room / elemSize <= room;
  }

  /** The arena vector with the template defaults: growth 16, room for 64 MiB of elements. */
  function DefaultArenaVector<T>(elemSize: nat, pageSize: nat, reserveOk: bool): (r: Option<Vector<T>>)
    requires 0 < elemSize <= MaxUint32
    requires IsPow2(pageSize) && pageSize <= 4096
    ensures r.Some? <==> reserveOk
    ensures r.Some? && 16 <= DefaultReserveSize / elemSize ==>
              Inv(r.value) && r.value.elems == [] && r.value.policy.capacity >= DefaultReserveSize / elemSize
  {
    var desired := DefaultReserveSize / elemSize;
    DefaultVectorBounds(elemSize, pageSize, desired);
    NewArenaVector(elemSize, 16, desired, pageSize, reserveOk)
  }

  // ---------------------------------------------------------------------
  // Policy operations
  // ---------------------------------------------------------------------

  function Size<T>(v: Vector<T>): nat
  {
    |v.elems|
  }

  function Capacity<T>(v: Vector<T>): nat
  {
    v.policy.capacity
  }

  /** One element more in an arena vector is one more element past the header. */
  lemma ArenaPushOneMore(a: Arena, s: nat, n: nat, cap: nat)
    requires Valid(a) && s > 0 && a.pos == a.basePos + n * s
    requires cap == (a.reserved - a.basePos) / s && a.reserved + s <= MaxUint64
    ensures PushFits(a, s, 1)
    ensures AlignUpPow2(a.pos, 1) + s == a.basePos + (n + 1) * s
    ensures AlignUpPow2(a.pos, 1) + s <= a.reserved <==> n < cap
  {
    AlignUpPow2One(a.pos);
    OneMoreFits(a.basePos, a.reserved, s, n, cap);
  }

  /** The arithmetic of ArenaPushOneMore: one element more fits exactly when the count is below the capacity. */
  lemma OneMoreFits(base: nat, reserved: nat, s: nat, n: nat, cap: nat)
    requires s > 0 && base + n * s <= reserved && cap == (reserved - base) / s
    ensures base + n * s + s == base + (n + 1) * s
    ensures base + n * s + s <= reserved <==> n < cap
  {
    assert (n + 1) * s == n * s + s;
    FitsIffAtMostQuotient(n + 1, s, reserved - base);
  }

  /**
   * push_new: default-construct one more element. The static policy refuses
   * when full; the arena policy pushes sizeof(T) bytes and succeeds exactly
   * when the arena does (a refused push may still have committed pages).
   */
  function PushNew<T>(v: Vector<T>, init: T): (r: (Vector<T>, bool))
    requires Inv(v)
    ensures Inv(r.0)
    ensures r.1 <==> |v.elems| < v.policy.capacity
    ensures r.1 ==> r.0.elems == v.elems + [init]
    ensures !r.1 ==> r.0.elems == v.elems
    ensures r.0.policy.capacity == v.policy.capacity
    ensures v.policy.StaticPolicy? ==> r.0.policy == v.policy
    ensures v.policy.ArenaPolicy? ==>
              && r.0.policy.ArenaPolicy?
              && r.0.policy.elemSize == v.policy.elemSize
              && r.0.policy.arena == v.policy.arena.(pos := r.0.policy.arena.pos, committed := r.0.policy.arena.committed)
              && r.0.policy.arena.committed >= v.policy.arena.committed
  {
    match v.policy
    case StaticPolicy(_, cap) =>
      if |v.elems| == cap then (v, false)
      else (v.(elems := v.elems + [init]), true)
    case ArenaPolicy(a, s, cap) =>
      ArenaPushOneMore(a, s, |v.elems|, cap);
      var p := ArenaPush(a, s, 1);
      var w := v.(policy := ArenaPolicy(p.arena, s, cap));
      if p.offset.Some? then (w.(elems := v.elems + [init]), true)
      else (w, false)
  }

  /** One element fewer in an arena vector is one element less past the header. */
  lemma ArenaPopOneLess(a: Arena, s: nat, n: nat)
    requires Valid(a) && s > 0 && n > 0 && a.pos == a.basePos + n * s
    ensures s < a.pos && a.pos - s < a.committed
    ensures a.pos - s == a.basePos + (n - 1) * s >= ArenaHeaderSize
  {
    assert n * s == (n - 1) * s + s;
  }

  /**
   * pop: drop the last element. The arena policy refuses an empty vector and
   * otherwise pops sizeof(T) bytes; the static policy decrements without a
   * check, so emptiness is its precondition.
   */
  function Pop<T>(v: Vector<T>): (r: Vector<T>)
    requires Inv(v)
    requires v.policy.StaticPolicy? ==> |v.elems| > 0
    ensures Inv(r)
    ensures |v.elems| > 0 ==> r.elems == v.elems[..|v.elems| - 1]
    ensures |v.elems| == 0 ==> r == v
    ensures v.policy.StaticPolicy? ==> r.policy == v.policy
    ensures v.policy.ArenaPolicy? ==>
              && r.policy.ArenaPolicy?
              && r.policy.elemSize == v.policy.elemSize
              && r.policy.capacity == v.policy.capacity
              && r.policy.arena == v.policy.arena.(pos := r.policy.arena.pos)
  {
    match v.policy
    case StaticPolicy(_, _) => v.(elems := v.elems[..|v.elems| - 1])
    case ArenaPolicy(a, s, cap) =>
      if |v.elems| == 0 then v
      else
        ArenaPopOneLess(a, s, |v.elems|);
        Vector(v.elems[..|v.elems| - 1], ArenaPolicy(ArenaPop(a, s), s, cap))
  }

  // ---------------------------------------------------------------------
  // Vector algorithms
  // ---------------------------------------------------------------------

  /** operator[]: the assertion on the index is a precondition. */
  function Get<T>(v: Vector<T>, i: nat): T
    requires i < |v.elems|
  {
    v.elems[i]
  }

  /** front(): reads slot 0, so the vector must not be empty. */
  function Front<T>(v: Vector<T>): T
    requires |v.elems| > 0
  {
    v.elems[0]
  }

  /** back(): reads slot size - 1, so the vector must not be empty. */
  function Back<T>(v: Vector<T>): T
    requires |v.elems| > 0
  {
    v.elems[|v.elems| - 1]
  }

  /**
   * push: push_new, then copy the value into the new slot; when push_new
   * fails the value is dropped without a signal.
   */
  function Push<T>(v: Vector<T>, x: T, init: T): (r: Vector<T>)
    requires Inv(v)
    ensures Inv(r)
    ensures |v.elems| < v.policy.capacity ==> r.elems == v.elems + [x]
    ensures |v.elems| >= v.policy.capacity ==> r.elems == v.elems
    ensures r.policy.capacity == v.policy.capacity
    ensures v.policy.StaticPolicy? ==> r.policy == v.policy
  {
    var pushed := PushNew(v, init);
    var w := pushed.0;
    if pushed.1 then w.(elems := w.elems[|w.elems| - 1 := x]) else w
  }

  /** The first index at or after `from` holding `x`, or eInvalidIndex. */
  function IndexOf<T(==)>(s: seq<T>, x: T, from: nat): (r: nat)
    requires from <= |s| <= MaxUint32
    ensures r == InvalidIndex || (from <= r < |s| && s[r] == x)
    ensures r == InvalidIndex <==> (forall j :: from <= j < |s| ==> s[j] != x)
    ensures r != InvalidIndex ==> forall j :: from <= j < r ==> s[j] != x
    decreases |s| - from
  {
    if from == |s| then InvalidIndex
    else if s[from] == x then from
    else IndexOf(s, x, from + 1)
  }

  /** find: the lowest index holding an equal element, or eInvalidIndex when there is none. */
  function Find<T(==)>(v: Vector<T>, x: T): (r: nat)
    requires |v.elems| <= MaxUint32
    ensures r == InvalidIndex <==> x !in v.elems
    ensures r != InvalidIndex ==> r < |v.elems| && v.elems[r] == x && x !in v.elems[..r]
  {
    IndexOf(v.elems, x, 0)
  }

  /**
   * Everything of the policy but the element count is kept: the static
   * buffer entirely, and the arena apart from its cursor.
   */
  predicate KeepsPolicy<T>(v: Vector<T>, r: Vector<T>)
  {
    && (v.policy.StaticPolicy? ==> r.policy == v.policy)
    && (v.policy.ArenaPolicy? ==>
          && r.policy.ArenaPolicy?
          && r.policy.elemSize == v.policy.elemSize
          && r.policy.arena == v.policy.arena.(pos := r.policy.arena.pos))
  }

  /**
   * remove: shift every element after `index` down by one, then pop. An
   * out-of-range index is reported and leaves the vector as it was.
   */
  method Remove<T>(v: Vector<T>, index: nat) returns (r: Vector<T>)
    requires Inv(v)
    ensures Inv(r)
    ensures index >= |v.elems| ==> r == v
    ensures index < |v.elems| ==> r.elems == v.elems[..index] + v.elems[index + 1..]
    ensures r.policy.capacity == v.policy.capacity
    ensures KeepsPolicy(v, r)
  {
    if index >= |v.elems| {
      return v;
    }
    var s := v.elems;
    var i := index;
    while i < |s| - 1
      invariant index <= i <= |s| - 1
      invariant |s| == |v.elems|
      invariant forall j :: 0 <= j < index ==> s[j] == v.elems[j]
      invariant forall j :: index <= j < i ==> s[j] == v.elems[j + 1]
      invariant forall j :: i <= j < |s| ==> s[j] == v.elems[j]
    {
      s := s[i := s[i + 1]];
      i := i + 1;
    }
    assert s[..|s| - 1] == v.elems[..index] + v.elems[index + 1..];
    r := Pop(v.(elems := s));
  }

  /** remove_elem: remove the first element equal to `x`; an absent value is reported and ignored. */
  method RemoveElem<T(==)>(v: Vector<T>, x: T) returns (r: Vector<T>)
    requires Inv(v)
    ensures Inv(r)
    ensures x !in v.elems ==> r == v
    ensures x in v.elems ==>
              exists i :: 0 <= i < |v.elems| && v.elems[i] == x && x !in v.elems[..i]
                          && r.elems == v.elems[..i] + v.elems[i + 1..]
    ensures r.policy.capacity == v.policy.capacity
    ensures KeepsPolicy(v, r)
  {
    var index := Find(v, x);
    if index == InvalidIndex {
      return v;
    }
    r := Remove(v, index);
  }

  // ---------------------------------------------------------------------
  // Properties
  // ---------------------------------------------------------------------

  /** Push then pop gives back the elements and the arena cursor; only committed pages may remain. */
  lemma PushPopRoundTrip<T>(v: Vector<T>, x: T, init: T)
    requires Inv(v) && |v.elems| < v.policy.capacity
    ensures Pop(Push(v, x, init)).elems == v.elems
    ensures v.policy.StaticPolicy? ==> Pop(Push(v, x, init)) == v
    ensures v.policy.ArenaPolicy? ==>
              Pop(Push(v, x, init)).policy.arena
                == v.policy.arena.(committed := Pop(Push(v, x, init)).policy.arena.committed)
  {
    var w := Push(v, x, init);
    assert w.elems[..|w.elems| - 1] == v.elems;
    if v.policy.ArenaPolicy? {
      var a, b := v.policy.arena, w.policy.arena;
      assert b.pos == a.pos + v.policy.elemSize by {
        assert (|v.elems| + 1) * v.policy.elemSize == |v.elems| * v.policy.elemSize + v.policy.elemSize;
      }
    }
  }

  /** Pushing a sequence of values one by one. */
  function PushAll<T>(v: Vector<T>, xs: seq<T>, init: T): (r: Vector<T>)
    requires Inv(v)
    ensures Inv(r)
    ensures |r.elems| == Min(|v.elems| + |xs|, v.policy.capacity)
    ensures |v.elems| + |xs| <= v.policy.capacity ==> r.elems == v.elems + xs
    ensures r.policy.capacity == v.policy.capacity
    ensures v.policy.StaticPolicy? ==> r.policy == v.policy
    decreases |xs|
  {
    if |xs| == 0 then v
    else
      var w := Push(v, xs[0], init);
      assert |w.elems| == Min(|v.elems| + 1, v.policy.capacity);
      assert |v.elems| < v.policy.capacity ==> w.elems == v.elems + [xs[0]];
      assert v.elems + [xs[0]] + xs[1..] == v.elems + xs;
      PushAll(w, xs[1..], init)
  }

  /** A full vector refuses a push and keeps its size, whatever the policy. */
  lemma FullVectorRefusesPush<T>(v: Vector<T>, x: T, init: T)
    requires Inv(v) && |v.elems| == v.policy.capacity
    ensures !PushNew(v, init).1
    ensures Push(v, x, init).elems == v.elems
  {
  }

  /** After a successful push the value is found at the old size, when it was absent before. */
  lemma FindAfterPush<T>(v: Vector<T>, x: T, init: T)
    requires Inv(v) && |v.elems| < v.policy.capacity && x !in v.elems
    ensures Find(Push(v, x, init), x) == |v.elems|
    ensures Back(Push(v, x, init)) == x
  {
    var w := Push(v, x, init);
    assert w.elems[..|v.elems|] == v.elems;
  }
}

=== FILE: vector_map.dfy ===
/**
 * VectorMap of Core_Vector.h: an association list kept in a vector of
 * key/element pairs, searched linearly. `add` inserts a key only when it
 * is absent, so keys stay distinct.
 */
module CoreVectorMap {
  import opened Globals
  import opened Wrappers
  import opened CoreVector
  import CoreArena

  /** VectorMapPair. */
  datatype Pair<K, E> = Pair(key: K, elem: E)

  datatype VectorMap<K, E> = VectorMap(vec: Vector<Pair<K, E>>)

  /** The keys of the pairs, in order. */
  function Keys<K, E>(pairs: seq<Pair<K, E>>): (r: seq<K>)
    ensures |r| == |pairs|
    ensures forall i :: 0 <= i < |pairs| ==> r[i] == pairs[i].key
  {
    if |pairs| == 0 then [] else Keys(pairs[..|pairs| - 1]) + [pairs[|pairs| - 1].key]
  }

  predicate DistinctKeys<K(==), E>(pairs: seq<Pair<K, E>>)
  {
    forall i, j :: 0 <= i < j < |pairs| ==> pairs[i].key != pairs[j].key
  }

  /** The map's invariant: its vector's, and no key twice. */
  predicate MapInv<K(==), E>(m: VectorMap<K, E>)
  {
    Inv(m.vec) && DistinctKeys(m.vec.elems)
  }

  /** find: the index of the first pair with this key, or eInvalidIndex. */
  function FindKey<K(==), E>(m: VectorMap<K, E>, key: K): (r: nat)
    requires |m.vec.elems| <= MaxUint32
    ensures r == InvalidIndex <==> key !in Keys(m.vec.elems)
    ensures r != InvalidIndex ==> r < |m.vec.elems| && m.vec.elems[r].key == key
    ensures r != InvalidIndex ==> forall j :: 0 <= j < r ==> m.vec.elems[j].key != key
  {
    IndexOf(Keys(m.vec.elems), key, 0)
  }

  /** The result of `add`: the map, the returned index and the caller's pExists slot (None for a null pointer). */
  datatype AddResult<K, E> = AddResult(map_: VectorMap<K, E>, index: nat, exists_: Option<nat>)

  /**
   * `add` as the source writes it: a present key reports its index and sets
   * *pExists to 1; otherwise the pair is pushed and size() - 1 is returned
   * as a uint32, whether or not the push took place.
   */
  function AddAsWritten<K(==), E>(m: VectorMap<K, E>, key: K, elem: E, blank: Pair<K, E>, pExists: Option<nat>): (r: AddResult<K, E>)
    requires Inv(m.vec)
    ensures Inv(r.map_.vec)
    ensures key in Keys(m.vec.elems) ==> r == AddResult(m, FindKey(m, key), if pExists.Some? then Some(1) else None)
    ensures key !in Keys(m.vec.elems) ==>
              && r.exists_ == pExists
              && r.index == WrapU32(|r.map_.vec.elems| - 1)
              && (|m.vec.elems| < m.vec.policy.capacity ==> r.map_.vec.elems == m.vec.elems + [Pair(key, elem)])
              && (|m.vec.elems| >= m.vec.policy.capacity ==> r.map_.vec.elems == m.vec.elems)
  {
    var i := FindKey(m, key);
    if i != InvalidIndex then
      AddResult(m, i, if pExists.Some? then Some(1) else None)
    else
      var v := Push(m.vec, Pair(key, elem), blank);
      AddResult(VectorMap(v), WrapU32(|v.elems| - 1), pExists)
  }

  /**
   * `add` with the failed push reported: eInvalidIndex when the key is new
   * and the vector is full, as ElementPool::Create does.
   */
  function Add<K(==), E>(m: VectorMap<K, E>, key: K, elem: E, blank: Pair<K, E>, pExists: Option<nat>): (r: AddResult<K, E>)
    requires Inv(m.vec)
    ensures Inv(r.map_.vec) && r.map_.vec.policy.capacity == m.vec.policy.capacity
    ensures r.index == InvalidIndex <==> key !in Keys(m.vec.elems) && |m.vec.elems| == m.vec.policy.capacity
    ensures r.index != InvalidIndex ==> r.index < |r.map_.vec.elems| && r.map_.vec.elems[r.index].key == key
    ensures key in Keys(m.vec.elems) ==>
              r.map_ == m && r.index == FindKey(m, key) && r.exists_ == (if pExists.Some? then Some(1) else None)
    ensures key !in Keys(m.vec.elems) ==> r.exists_ == pExists
    ensures key !in Keys(m.vec.elems) && |m.vec.elems| < m.vec.policy.capacity ==>
              r.map_.vec.elems == m.vec.elems + [Pair(key, elem)] && r.index == |m.vec.elems|
    ensures key !in Keys(m.vec.elems) && |m.vec.elems| == m.vec.policy.capacity ==> r.map_.vec.elems == m.vec.elems
  {
    var i := FindKey(m, key);
    if i != InvalidIndex then
      AddResult(m, i, if pExists.Some? then Some(1) else None)
    else if |m.vec.elems| == m.vec.policy.capacity then
      AddResult(VectorMap(Push(m.vec, Pair(key, elem), blank)), InvalidIndex, pExists)
    else
      var v := Push(m.vec, Pair(key, elem), blank);
      AddResult(VectorMap(v), |v.elems| - 1, pExists)
  }

  /** get_data: the element of the pair at an index the caller asserts is in range. */
  function GetData<K, E>(m: VectorMap<K, E>, i: nat): E
    requires i < |m.vec.elems|
  {
    m.vec.elems[i].elem
  }

  /** find_data: the element stored under a key; the source indexes unchecked, so the key must be present. */
  function FindData<K(==), E>(m: VectorMap<K, E>, key: K): (r: E)
    requires |m.vec.elems| <= MaxUint32 && key in Keys(m.vec.elems)
    ensures Pair(key, r) in m.vec.elems
    ensures DistinctKeys(m.vec.elems) ==> forall p :: p in m.vec.elems && p.key == key ==> p.elem == r
  {
    m.vec.elems[FindKey(m, key)].elem
  }

  /** A run of add calls, one per pair, in order, with no exists flag asked for. */
  function AddAll<K(==), E>(m: VectorMap<K, E>, pairs: seq<Pair<K, E>>, blank: Pair<K, E>): (r: VectorMap<K, E>)
    requires Inv(m.vec)
    ensures Inv(r.vec) && r.vec.policy.capacity == m.vec.policy.capacity
    ensures |m.vec.elems| <= |r.vec.elems| <= |m.vec.elems| + |pairs|
    decreases |pairs|
  {
    if |pairs| == 0 then m else AddAll(Add(m, pairs[0].key, pairs[0].elem, blank, None).map_, pairs[1..], blank)
  }

  // ---------------------------------------------------------------------
  // Properties
  // ---------------------------------------------------------------------

  lemma KeysAppend<K, E>(pairs: seq<Pair<K, E>>, p: Pair<K, E>)
    ensures Keys(pairs + [p]) == Keys(pairs) + [p.key]
  {
  }

  /** Add keeps the keys distinct. */
  lemma AddPreservesInv<K, E>(m: VectorMap<K, E>, key: K, elem: E, blank: Pair<K, E>, pExists: Option<nat>)
    requires MapInv(m)
    ensures MapInv(Add(m, key, elem, blank, pExists).map_)
  {
    var r := Add(m, key, elem, blank, pExists);
    if key !in Keys(m.vec.elems) && |m.vec.elems| < m.vec.policy.capacity {
      var pairs := r.map_.vec.elems;
      forall i, j | 0 <= i < j < |pairs|
        ensures pairs[i].key != pairs[j].key
      {
        if j == |m.vec.elems| {
          assert Keys(m.vec.elems)[i] == pairs[i].key;
        }
      }
    }
  }

  /** After a successful add the key's data is the element added, or the one already there. */
  lemma AddThenFindData<K, E>(m: VectorMap<K, E>, key: K, elem: E, blank: Pair<K, E>, pExists: Option<nat>)
    requires MapInv(m)
    requires Add(m, key, elem, blank, pExists).index != InvalidIndex
    ensures key in Keys(Add(m, key, elem, blank, pExists).map_.vec.elems)
    ensures FindData(Add(m, key, elem, blank, pExists).map_, key)
              == (if key in Keys(m.vec.elems) then FindData(m, key) else elem)
  {
    var r := Add(m, key, elem, blank, pExists);
    var pairs := r.map_.vec.elems;
    assert Keys(pairs)[r.index] == key;
    AddPreservesInv(m, key, elem, blank, pExists);
    var d := FindData(r.map_, key);
    assert Pair(key, d) in pairs;
    if key !in Keys(m.vec.elems) {
      assert pairs[r.index] == Pair(key, elem);
    }
  }

  /** Adding a key twice changes nothing the second time and reports the same index. */
  lemma AddIdempotent<K, E>(m: VectorMap<K, E>, key: K, e1: E, e2: E, blank: Pair<K, E>)
    requires MapInv(m)
    requires Add(m, key, e1, blank, None).index != InvalidIndex
    ensures Add(Add(m, key, e1, blank, None).map_, key, e2, blank, Some(0))
              == AddResult(Add(m, key, e1, blank, None).map_, Add(m, key, e1, blank, None).index, Some(1))
  {
    var r := Add(m, key, e1, blank, None);
    assert Keys(r.map_.vec.elems)[r.index] == key;
    AddPreservesInv(m, key, e1, blank, None);
    var i := FindKey(r.map_, key);
    assert r.map_.vec.elems[i].key == r.map_.vec.elems[r.index].key;
  }

  /** Adding one key does not move any other key. */
  lemma AddKeepsOtherKeys<K, E>(m: VectorMap<K, E>, key: K, other: K, elem: E, blank: Pair<K, E>)
    requires MapInv(m) && other != key
    ensures FindKey(Add(m, key, elem, blank, None).map_, other) == FindKey(m, other)
  {
    var r := Add(m, key, elem, blank, None);
    if key !in Keys(m.vec.elems) && |m.vec.elems| < m.vec.policy.capacity {
      KeysAppend(m.vec.elems, Pair(key, elem));
    }
  }

  /** Where the source and the corrected add agree: always, except for a new key in a full map. */
  lemma AddAsWrittenAgrees<K, E>(m: VectorMap<K, E>, key: K, elem: E, blank: Pair<K, E>, pExists: Option<nat>)
    requires Inv(m.vec)
    ensures key in Keys(m.vec.elems) || |m.vec.elems| < m.vec.policy.capacity ==>
              AddAsWritten(m, key, elem, blank, pExists) == Add(m, key, elem, blank, pExists)
    ensures key !in Keys(m.vec.elems) && 0 < |m.vec.elems| == m.vec.policy.capacity ==>
              && AddAsWritten(m, key, elem, blank, pExists).index == |m.vec.elems| - 1
              && m.vec.elems[|m.vec.elems| - 1].key != key
              && Add(m, key, elem, blank, pExists).index == InvalidIndex
  {
    if key !in Keys(m.vec.elems) {
      var n := |m.vec.elems|;
      if n < m.vec.policy.capacity {
      } else if n > 0 {
        assert Keys(m.vec.elems)[n - 1] == m.vec.elems[n - 1].key;
      }
    }
  }

  /**
   * Pairs of `s` bytes over pages of `pageSize` bytes for which the arena
   * of a VectorPolicyArena< Pair, 1, 1 > holds exactly one pair.
   */
  predicate OnePairRoom(s: nat, pageSize: nat)
  {
    && s > 0 && pageSize > 0 && IsPow2(pageSize)
    && 2 * s + CoreArena.ArenaHeaderSize + pageSize <= MaxUint64
    && (RoundUp(s + CoreArena.ArenaHeaderSize, pageSize) - CoreArena.ArenaHeaderSize) / s == 1
  }

  /** 2048-byte pairs over 4 KiB pages: the one-page reservation holds (4096 - 64) / 2048 = 1 pair. */
  lemma OnePairRoomExample()
    ensures OnePairRoom(2048, 4096)
  {
    assert RoundUp(2048 + 64, 4096) == 4096;
    DivModUnique(4096 - 64, 2048, 1, 1984);
    assert IsPow2(16);
    assert IsPow2(256);
  }

  /** The arena vector of such pairs: empty, valid, with room for exactly one pair. */
  lemma OnePairArenaVector(s: nat, pageSize: nat)
    requires OnePairRoom(s, pageSize)
    ensures NewArenaVector<Pair<nat, nat>>(s, 1, 1, pageSize, true).Some?
    ensures var v := NewArenaVector<Pair<nat, nat>>(s, 1, 1, pageSize, true).value;
            Inv(v) && v.elems == [] && v.policy.capacity == 1
  {
    assert CapacityFits(s, 1, pageSize);
  }

  /**
   * A full map on the arena policy: pairs of `s` bytes in a
   * VectorPolicyArena< Pair, 1, 1 > whose reservation holds one pair, as
   * for 2048-byte pairs over 4 KiB pages. After add( 1, 10 ), adding
   * 2 -> 20 cannot push, yet the source returns index 0, whose data is 10.
   */
  lemma AddAsWrittenReturnsForeignIndex(s: nat, pageSize: nat)
    requires OnePairRoom(s, pageSize)
    ensures NewArenaVector<Pair<nat, nat>>(s, 1, 1, pageSize, true).Some?
    ensures var m0 := VectorMap(NewArenaVector<Pair<nat, nat>>(s, 1, 1, pageSize, true).value);
            var m := AddAsWritten(m0, 1, 10, Pair(0, 0), None).map_;
            var r := AddAsWritten(m, 2, 20, Pair(0, 0), None);
            && m.vec.elems == [Pair(1, 10)]
            && m.vec.policy.capacity == 1
            && r.index == 0
            && r.map_.vec.elems == m.vec.elems
            && GetData(r.map_, r.index) == 10
            && FindKey(r.map_, 2) == InvalidIndex
            && Add(m, 2, 20, Pair(0, 0), None).index == InvalidIndex
  {
    OnePairArenaVector(s, pageSize);
    var m0 := VectorMap(NewArenaVector<Pair<nat, nat>>(s, 1, 1, pageSize, true).value);
    assert Keys(m0.vec.elems) == [];
    var m := AddAsWritten(m0, 1, 10, Pair(0, 0), None).map_;
    assert m.vec.elems == [Pair(1, 10)];
    assert Keys(m.vec.elems) == [1];
    assert 2 !in Keys(m.vec.elems);
    AddAsWrittenAgrees(m, 2, 20, Pair(0, 0), None);
  }

  /** Adding pairs whose keys are new and distinct, into a map with room for all of them, appends them in order. */
  lemma {:induction false} AddAllFresh<K, E>(m: VectorMap<K, E>, pairs: seq<Pair<K, E>>, blank: Pair<K, E>)
    requires MapInv(m) && DistinctKeys(m.vec.elems + pairs)
    requires |m.vec.elems| + |pairs| <= m.vec.policy.capacity
    ensures MapInv(AddAll(m, pairs, blank))
    ensures AddAll(m, pairs, blank).vec.elems == m.vec.elems + pairs
    decreases |pairs|
  {
    if |pairs| == 0 {
      assert m.vec.elems + pairs == m.vec.elems;
    } else {
      var p := pairs[0];
      var all := m.vec.elems + pairs;
      assert p.key !in Keys(m.vec.elems) by {
        forall i | 0 <= i < |m.vec.elems|
          ensures Keys(m.vec.elems)[i] != p.key
        {
          assert all[i] == m.vec.elems[i] && all[|m.vec.elems|] == p;
        }
      }
      var next := Add(m, p.key, p.elem, blank, None).map_;
      AddPreservesInv(m, p.key, p.elem, blank, None);
      assert next.vec.elems == m.vec.elems + [p];
      assert next.vec.elems + pairs[1..] == all;
      AddAllFresh(next, pairs[1..], blank);
    }
  }
}

=== FILE: wrappers.dfy ===
/** Failure-carrying results used where the C++ returns a null pointer. */
module Wrappers {

  /** `None` stands for a null pointer or an absent value. */
  datatype Option<+T> = None | Some(value: T) {

    /** The value, or `default` when there is none. */
    function GetOr(default: T): T {
      match this
      case Some(v) => v
      case None => default
    }
  }
}
